=== FILE: README.md ===
# letterboxd GraphQL façade — a Dafny model of its core

The façade answers GraphQL queries by calling the Letterboxd REST API. Two of
its parts carry real logic, and this project models both as pure functions
over an immutable JSON-like `Value`.

1. **Signed requests and the cache key.** The data source signs every request
   (`signRequest`). It appends `apikey`, `nonce` and `timestamp` to the query
   parameters. It then computes an HMAC of `method NUL url NUL body` and
   appends that HMAC as `signature`. The cache key (`cacheKeyFor`) takes those
   four parameters back out, so that repeated signings of one request share a
   cache entry. index.js has a second, string-based signer (`buildUrl`), plus
   the header choice of `request`/`formRequest` and the login form of
   `generateToken`.
2. **Summary/Detail field resolution.** List and search endpoints return
   partial "summary" entities. A summary is recognised by one missing
   sentinel field: `trailer` for films, `links` for lists, members and
   contributors. When a resolver needs a field only the detail carries, it
   fetches the detail by the entity's `id` and reads the field there. On a
   detail it reads the field directly.

The modules follow the source:

| module | models |
|---|---|
| `Json` | JavaScript values, property access that throws on `null`/`undefined`, truthiness, `===`, `String(v)` and decimal numbers |
| `FieldDispatch` | `fieldResolver` |
| `Upstream` | the data source's getters and their paths, `items` unwrapping, the HTTP transport as an oracle |
| `SummaryDetail` | the four `is…Summary` predicates and `fetchFromDetailIf…Summary` |
| `FilmResolvers`, `ListResolvers`, `MemberResolvers`, `ContributorResolvers`, `LogEntryResolvers` | the per-type field resolvers |
| `QueryString` | ordered query parameters and the object `query-string` parses them into |
| `Signing` | `signRequest` |
| `CacheKey` | `cacheKeyFor` |
| `IndexRequests` | index.js's `buildUrl`, `request`, `formRequest` and `generateToken` |
| `QueryResolvers` | the Query resolvers that split an id from the remaining arguments |

Outside things become parameters:

- **Transport.** Each resolver takes `api: string -> Result<Value>` (the GET of a path) and returns `Fetched(result, requests)`. `requests` lists the paths it requested, in order, so "one request on a summary, none on a detail" can be stated directly.
- **Function-valued fields.** Calls to them go through an oracle `call`.
- **Signing inputs.** The HMAC, the nonce, the clock and the credentials are fields of `Signing.Inputs`.
- **Encoders.** `URLSearchParams` and `query-string` are an abstract `QueryString.Codec`. Lemmas that need it to behave take the hypothesis `Lawful`: parsing reads back what serialising wrote, serialised output has no NUL, and an empty input serialises to the empty string.

Errors are values: `Result<T>` is `Ok(value)` or `Err(TypeError | HttpError)`.
A TypeError is what a property read on `null`/`undefined`, or a call of a non-function, throws.

`directors` on a summary film answers the summary's own `directors` field and makes no request (src/types/film/film.js:31-33, index.js:436-438); `FilmResolvers.DirectorsOnBareSummary` states it.

## Model

| member | source | states |
|---|---|---|
| `FieldDispatch.FieldResolver` | src/resolvers.js:3-17 | a `null` source throws; a non-object source gives `undefined`; a function-valued field is called with (args, info); any other failure comes only from that call |
| `FieldDispatch.PlainRead` | src/resolvers.js:11-16 | without a function-valued field, the result is the field's own value (`null` included), or `undefined` when it is absent |
| `FieldDispatch.NullFieldIsReturned` | src/resolvers.js:11-13 | a field holding `null` resolves to `null`, not to "unresolved" |
| `FieldDispatch.CallOnlyForFunctions` | src/resolvers.js:8-10 | the function invoker influences the result only when the field is a function |
| `Upstream.PathRoundTrip` | src/letterboxdapi.js:23-57 | each getter's path decodes back to the resource and id it was built from |
| `Upstream.PathInjective` | index.js:32-58 | no two getters, or two ids, share a path |
| `Upstream.Items` | src/letterboxdapi.js:59-65 | `getGenres`/`getServices` make one request for their path; they propagate its error, or answer the `items` field of its body |
| `Upstream.ItemsIgnoresEnvelope` | src/letterboxdapi.js:59-65 | the pagination envelope is dropped: bodies that agree on `items` give the same answer whatever their other fields, and an object body never throws |
| `SummaryDetail.FetchFromDetailIfSummary` | src/resolvers.js:24-54 | an entity is a summary iff exactly one request is made, and a detail iff none is; the only path requested is the detail of the entity's own id; the field is `fieldResolver` applied to the fetched payload on a summary and to the entity itself on a detail; a failed fetch propagates |
| `SummaryDetail.FetchOnSummary` | src/types/film/film.js:6-9 | on a summary: the single request is `<kind>/<id>` and the field comes from that payload |
| `SummaryDetail.NoFetchOnDetail` | src/types/film/film.js:11 | on a detail: no request, and the field comes from the entity |
| `SummaryDetail.NullSentinelIsDetail` | src/resolvers.js:19-22 | a sentinel holding `null` marks a detail, not a summary |
| `SummaryDetail.SameFieldEitherRepresentation` | src/types/member/member.js:5-12 | when the API serves a detail for the summary's id, a field resolves to the same value from the summary and from that detail, and the detail costs no request |
| `SummaryDetail.SummaryFieldSurvivesFetch` | src/types/contributor/contributor.js:5-12 | a plain field the summary already carries comes back unchanged through the fetch |
| `FilmResolvers.FilterByType` | src/types/film/film.js:20-21 | `filter(c => c.type === t)` succeeds iff no element is `null`/`undefined`; it then keeps exactly the elements of type `t`, as an order-preserving subsequence with the matching count |
| `FilmResolvers.FindByType` | src/types/film/film.js:34 | `find` gives the first element of type `t`; none only when every element was read and none matched; an error only when a `null`/`undefined` element is reached before any match |
| `FilmResolvers.AlternativeNames` | src/types/film/film.js:16 | `[]` when the field is `undefined`, the field unchanged otherwise (`null` included), never a request |
| `FilmResolvers.AlternativeNamesDefaultsOnly` | src/types/film/film.js:16 | the answer is never `undefined`, and wherever the field holds a non-function value the override agrees with the plain `fieldResolver` |
| `FilmResolvers.Contributions` | src/types/film/film.js:18-24 | requests exactly what the summary/detail helper requests; without a truthy `type` the helper's result is unchanged |
| `FilmResolvers.ContributionsOfType` | src/resolvers.js:165-171 | with a `type`, the result is exactly the contributions of that type, in their original order |
| `FilmResolvers.ContributionsIndexJs` | index.js:423-429 | the index.js version requests the same paths, on a summary film agrees with the async version, and on a detail film with a truthy `type` always fails |
| `FilmResolvers.ContributionsIndexJsThrowsOnDetail` | index.js:204-209 | on a detail film with a type argument the index.js version throws where the async version answers the filtered list |
| `FilmResolvers.Directors` | src/types/film/film.js:30-39 | never a request; a summary answers its own `directors` field; a detail with no contributions array throws |
| `FilmResolvers.DirectorsFromFirstDirector` | src/resolvers.js:181-183 | on a detail, the `contributors` of the first `Director` contribution |
| `FilmResolvers.DirectorsWithoutDirector` | src/resolvers.js:185 | on a detail with no `Director` contribution, `[]` |
| `FilmResolvers.DirectorsExample` | index.js:435-444 | with a director before an actor, the director's contributors are returned |
| `FilmResolvers.DirectorsOnBareSummary` | src/resolvers.js:177-179 | a summary film without `directors` answers `undefined` and requests nothing |
| `FilmResolvers.FilmFieldRequests` | src/resolvers.js:162-187 | a Film field costs one request for the film's own detail exactly when the film is a summary and the field needs the detail |
| `ListResolvers.Tags` | index.js:459-466 | a summary requests `list/<id>` once and answers that payload's `tags2`, or its error; a detail answers its own `tags2` with no request |
| `ListResolvers.TagsViaContext` | src/types/list/list.js:17-22 | the src version throws on a summary before any request and answers `tags2` on a detail |
| `ListResolvers.TagsViaContextFailsOnSummary` | src/resolvers.js:201-206 | for a summary list whose detail has tags, the src version fails where the index.js version answers the tags |
| `ListResolvers.TagsReadsTags2` | src/types/list/list.js:21 | a detail list answers `tags2`, never `tags`, without a request |
| `ListResolvers.TagsEitherRepresentation` | index.js:460-465 | `tags` of a summary equals `tags` of its detail; only the summary costs a request |
| `ListResolvers.ListFieldRequests` | index.js:457-472 | under index.js's List table, a field costs one request for the list's own detail exactly when the list is a summary and the field is `tags` or one of the six detail fields |
| `ListResolvers.SrcListFieldRequests` | src/types/list/list.js:14-28 | under src's List table, a field costs one request exactly when the list is a summary and the field is one of the six detail fields; `tags` on a summary throws a TypeError with no request; on a detail, or for any other field, both tables agree |
| `ListResolvers.ListFieldFromPayload` | src/types/list/list.js:5-12 | each of the six detail fields is read from the chosen payload |
| `MemberResolvers.MemberFieldFromPayload` | src/types/member/member.js:15-25 | each of the nine Member fields makes one `member/<id>` request on a summary and none on a detail, and is read from the chosen payload |
| `MemberResolvers.DetailMemberLinks` | src/types/member/member.js:24 | `links` of a detail member is that member's own `links`, with no request |
| `MemberResolvers.OtherMemberFieldsNeverFetch` | src/resolvers.js:188-198 | a Member field outside the nine never costs a request |
| `ContributorResolvers.CharacterName` | src/types/contributor/contributor.js:16-21 | a summary answers its own `characterName` verbatim; a detail answers `null`; no request either way |
| `ContributorResolvers.CharacterNameInverted` | src/resolvers.js:214-219 | a detail answers `null` even when it carries a name that the matching summary returns |
| `ContributorResolvers.ContributorFieldFromPayload` | src/types/contributor/contributor.js:5-23 | `statistics` and `links` make one `contributor/<id>` request on a summary and none on a detail, and are read from the chosen payload |
| `LogEntryResolvers.Tags` | src/resolvers.js:159-161 | `LogEntry.tags` never fails on an entry and answers its `tags2` field, or `undefined` when it has none |
| `LogEntryResolvers.TagsReadsTags2` | src/resolvers.js:159-161 | the answer does not depend on the entry's own `tags` field, and equals what `fieldResolver` gives for `tags2` when that is not a function |
| `QueryString.GroupByKey` | src/letterboxdapi.js:71-72 | the parsed query object has a key iff some pair names it, holding that key's values in order: one as a string, several as an array |
| `QueryString.GroupIgnoresDroppedTail` | src/letterboxdapi.js:72-76 | pairs appended under deleted keys leave the rest of the parsed object unchanged |
| `Signing.TimestampSeconds` | src/letterboxdapi.js:93-94 | the timestamp is within half a second of the clock: `-500 < 1000*s - ms <= 500` |
| `Signing.SignRequest` | src/letterboxdapi.js:92-114 | the caller's parameters stay as a prefix, and exactly four follow: `apikey`, `nonce`, `timestamp`, `signature`; they carry the key, the nonce and the decimal seconds |
| `Signing.SignedRequestIsValid` | src/letterboxdapi.js:100-113 | the signature is the HMAC of the verb, the production URL carrying every parameter before it, and the body |
| `Signing.SignatureNotCovered` | src/letterboxdapi.js:96-106 | the signed parameters never include `signature` unless the caller passed one |
| `Signing.FreshNonceOrSecondChangesSaltedString` | src/letterboxdapi.js:93-102 | with a lawful encoder, a different nonce or a different second changes the signed string |
| `Signing.ProductionSignatureCoversRequestUrl` | src/letterboxdapi.js:92-100 | against the production base URL, the signed URL is the requested URL minus the signature, for paths URL resolution leaves unchanged |
| `Signing.DevSignatureCoversProductionUrl` | src/letterboxdapi.js:16-20 | against the development proxy, the signed URL differs from the requested one: it always names the production host |
| `CacheKey.SplitAtFirstMark` | src/letterboxdapi.js:71 | `parseUrl` of `base?query`, with a base free of `?`, gives back the base and the whole query |
| `CacheKey.CacheParams` | src/letterboxdapi.js:71-76 | no signing key survives; every other key of the parsed query survives with all its values in order |
| `CacheKey.CacheKeyFor` | src/letterboxdapi.js:78-85 | the key is the bare URL when nothing is left to serialise, and the URL, `?` and the remainder otherwise |
| `CacheKey.RequestUrlParams` | src/letterboxdapi.js:71-72 | the cache parameters of a request URL are the grouped request parameters minus the signing keys |
| `CacheKey.CacheKeyIgnoresSigning` | src/letterboxdapi.js:67-114 | the signed request's URL has the same cache key as the unsigned request's URL |
| `CacheKey.SigningsShareCacheKey` | index.js:60-107 | two signings of one request, with any nonce and clock, share their cache key |
| `CacheKey.OtherParamsKeepKeysApart` | src/letterboxdapi.js:80-83 | requests to one path whose remaining parameters serialise differently keep distinct cache keys |
| `IndexRequests.BuildUrl` | index.js:112-140 | the URL starts with the production path URL, opens its query with `?` when the path has none and continues it with `&` when it has one, and ends with `&signature=` and the HMAC of the verb, the URL so far and the body |
| `IndexRequests.SeparatorFollowsPath` | index.js:116-122 | the separator depends only on whether the path holds a `?` |
| `IndexRequests.BuildUrlIsValid` | index.js:126-137 | with a signature free of `&`, splitting the URL at its last `&` recovers the signature, and it covers everything before it |
| `IndexRequests.BuildUrlAgreesWithSignRequest` | index.js:85-107 | for a path without a query, `buildUrl` and `signRequest` hash the same string |
| `IndexRequests.RequestHeaders` | index.js:145-156 | Accept and Accept-Encoding always; JSON Content-Type iff the body is truthy; `Bearer <token>` iff the token is truthy; nothing else |
| `IndexRequests.Request` | index.js:142-163 | the URL is signed over the body sent, and the headers follow the body and the token |
| `IndexRequests.FormHeaders` | index.js:168-172 | exactly `Accept: application/json`, `Accept-Encoding: gzip` and a form Content-Type, so never an Authorization header |
| `IndexRequests.FormRequest` | index.js:165-179 | the URL is signed over the form body; no token is sent |
| `IndexRequests.TokenForm` | index.js:313-317 | the login form holds exactly `username`, `password` and `grant_type=password` |
| `IndexRequests.GenerateToken` | index.js:312-322 | the serialised form is POSTed to `auth/token` with no Authorization header |
| `IndexRequests.TokenSignatureCoversForm` | index.js:319-321 | the token URL verifies against the form body, and that body closes the signed string |
| `QueryResolvers.StripId` | src/resolvers.js:69-75 | the id is the argument under the id key, and exactly the other arguments are forwarded, unchanged |
| `QueryResolvers.SrcForward` | src/resolvers.js:138-144 | `filmCollection`, `filmMembers` and `contributions` forward every argument but the id key |
| `QueryResolvers.WatchlistArgsAsWritten` | src/resolvers.js:124-130 | the src `watchlist` throws iff the member id is `null`/`undefined`; otherwise it forwards every argument key, `member` included, with the forwarded `member` being the id itself (`queryParams` is `args`); a primitive id leaves the arguments untouched, an object id loses its own `member` field in both places |
| `QueryResolvers.WatchlistObjectIdShared` | src/resolvers.js:125-127 | for an object id with a `member` field, the `delete` strips it from the id and from the forwarded `member` argument alike |
| `QueryResolvers.WatchlistArgs` | index.js:355-367 | the corrected `watchlist` forwards every argument but `member` |
| `QueryResolvers.WatchlistKeepsMember` | src/resolvers.js:127 | for a string member id the src version forwards `member` as a parameter; the corrected one does not |
| `QueryResolvers.WithQuery` | index.js:255-258 | `?query` is appended only when the serialised query is non-empty |
| `QueryResolvers.WithQuerySplits` | index.js:269-272 | such a URL splits back into its prefix and the serialised query |
| `QueryResolvers.IdQueryPath` | index.js:249-261 | the path is the id's path followed by the arguments left once the id is removed |
| `QueryResolvers.IdQueryMatchesSrc` | index.js:381-393 | index.js puts into the URL the same id and parameters that src forwards, watchlist included once corrected; both sides are built from `StripId`, so this holds by unfolding the definitions |
| `QueryResolvers.IdQueryWithholdsOnlyId` | index.js:263-275 | for an id free of `?`, the URL's query is the serialisation of every argument except the id |
| `QueryResolvers.IdQuerySignedSeparator` | index.js:355-367 | signing an id query opens with `?` when only the id was given and continues with `&` otherwise |
| `QueryResolvers.ArgsQueryPath` | index.js:293-302 | `logEntries`, `search` and `usernameCheck` put their fixed path before the `?` and serialise every argument after it |

## Left out

- HTTP transport is not modelled. This covers `node-fetch`, `RESTDataSource`'s response cache and de-duplication, and `.json()`. Each GET is the oracle `api(path)`. The query parameters that the list getters (`getFilms(params)` …) pass to `this.get` do not key the oracle.
- The request paths of `request` (index.js) and of the data source share one oracle. index.js's `request` resolves even on a non-2xx status and then parses the error body; the model gives both the same `Result`.
- The environment is not modelled: `process.env`, the `NODE_ENV` branch and the TLS switch. Both base URLs appear as constants, and the lemmas state each case. The key and the secret are parameters.
- HMAC-SHA256, `uuid()` and `Date` are parameters. Nothing is claimed about cryptographic strength. A hex digest contains no `&`; the lemmas that need this take it as a hypothesis.
- The encoders are abstract: `URLSearchParams` serialisation, `query-string`'s parse/stringify, percent-encoding and key sorting. URL fragments (`#…`), which `parseUrl` also strips, are not modelled.
- `Signing.TimestampSeconds`: the source rounds a floating-point quotient. The model computes on integers. The two agree for every integer millisecond count below 2^53.
- Promises and async scheduling are not modelled. Each resolver's answer is its settled value or the error it would reject with.
- Built-in properties of primitives (`"abc".length`, array methods) are not modelled. `Prop` reads own fields of plain objects only.
- graphql's `defaultFieldResolver` in src/types is modelled by the same dispatch as `fieldResolver`. The two differ only on a `null` source, where the library returns `undefined` and `fieldResolver` throws. `fieldResolver` is modelled as written.
- The pass-through Query resolvers that map one argument to one getter (`film`, `films`, `list`, `member`, `memberStatistics`, …) are not modelled. The same goes for the `items`/`result` unwrapping of index.js's `filmAvailability`, `memberLogEntryTags`, `memberListTags` and `usernameCheck`.
- Several calls in src/resolvers.js:64-146 go to data-source methods (`getFilmCollection`, `getMemberWatchlist`, …) that are not defined in src/letterboxdapi.js. These Query resolvers are modelled up to the pair they forward.
- src/resolvers.js:85-86 wires `filmAvailability` to `getRelationshipToFilm`. This is recorded and not modelled, because that getter is itself absent.
- JSON numbers are modelled as integers (`Json.Value`'s `Num(n: int)`). Fractional and floating-point values, such as ratings, are not modelled.
- Request paths containing `?` are left out of the data source's URL lemmas (`CacheKey.RequestUrlParams`, `CacheKey.CacheKeyIgnoresSigning`, `CacheKey.SigningsShareCacheKey`, `CacheKey.OtherParamsKeepKeysApart`): `new URL` would re-parse such a path's query and merge it with the parameters, and the model does not parse URLs.
- `RESTDataSource`'s URL resolution (`new URL(path, base)`) is modelled only as `Signing.JoinBase`: a slash, then the path as it is. Percent-encoding, dot segments, `#` fragments and a query inside the path are not resolved.
- Signing.ProductionSignatureCoversRequestUrl: the signed URL equals the requested one only for paths `new URL` leaves unchanged, meaning no character it percent-encodes (space, `"`, `<`, `>`, `` ` ``, `{`, `}`, non-ASCII), no `.`/`..` segment, no `?` and no `#`. For a path such as `film/a b`, the program signs `film/a b` but requests `film/a%20b`. The `CacheKey` lemmas over `RequestUrl` describe the same simplified URL.
- Server bootstrap is not modelled: schema loading, `ApolloServer` and `listen`.

## Findings

| source | as written | input that shows it | evidently intended | confidence | as-written member | corrected member |
|---|---|---|---|---|---|---|
| src/resolvers.js:124-130 | `delete memberId.member` deletes from the member id, not from the arguments | `{member: "2bbs", perPage: 20}` forwards `member` as a query parameter too | `delete queryParams.member`, as index.js:355-367 does | high; not executed | `QueryResolvers.WatchlistKeepsMember` | `QueryResolvers.WatchlistArgs` |
| src/types/list/list.js:17-22 | a summary list's `tags` calls `context.letterboxdAPI.getList`, but the data source lives at `context.dataSources.letterboxdAPI` | any summary list, e.g. `{id: "7"}`, throws a TypeError | `GET list/<id>` and answer its `tags2`, as index.js:459-466 does | high; not executed | `ListResolvers.TagsViaContextFailsOnSummary` | `ListResolvers.Tags` |
| index.js:423-429 | `result.then(…)` where `fetchFromDetailIfFilmSummary` is not async and returns a plain array for a detail film | a detail film `{trailer: null, contributions: [{type: "Director"}]}` with `type: "Director"` throws a TypeError | filter the resolved list, as the async version in src/types/film/film.js:18-24 does | high; not executed | `FilmResolvers.ContributionsIndexJsThrowsOnDetail` | `FilmResolvers.Contributions` |

=== FILE: cache_key.dfy ===
/** The data source's cache key (`cacheKeyFor`): the request URL with the
    four parameters signing adds taken out, so that two signings of one
    request share a cache entry and are de-duplicated. */
module CacheKey {
  import opened Json
  import opened QueryString
  import opened Signing

  /** The parameters `signRequest` appends. */
  const SigningKeys: set<string> := {"apikey", "nonce", "signature", "timestamp"}

  /** The position of the first `?` in `url`, or `|url|` when there is none. */
  function MarkIndex(url: string): (i: nat)
    ensures i <= |url|
    ensures i < |url| ==> url[i] == '?'
    ensures forall j | 0 <= j < i :: url[j] != '?'
    decreases |url|
  {
    if url == [] then 0
    else if url[0] == '?' then 0
    else 1 + MarkIndex(url[1..])
  }

  /** `parseUrl(...).url`: everything before the first `?`. */
  function UrlBase(url: string): string {
    url[..MarkIndex(url)]
  }

  /** The query `parseUrl` parses: everything after the first `?`, or
      nothing when the URL has none. */
  function UrlQuery(url: string): string {
    var i := MarkIndex(url);
    if i < |url| then url[i + 1..] else ""
  }

  /** Splitting a URL at its first `?` gives back the base and the query it
      was built from, whatever the query itself contains. */
  lemma SplitAtFirstMark(base: string, query: string)
    requires '?' !in base
    ensures UrlBase(base + "?" + query) == base
    ensures UrlQuery(base + "?" + query) == query
    ensures UrlBase(base) == base && UrlQuery(base) == ""
  {
    var url := base + "?" + query;
    assert url[|base|] == '?';
    assert forall j | 0 <= j < |base| :: url[j] == base[j];
    assert MarkIndex(url) == |base|;
    assert url[|base| + 1..] == query;
    assert base[..|base|] == base;
  }

  /** The parsed query of `url` with the signing parameters deleted: every
      other key the query names survives, holding all its values in order. */
  function CacheParams(url: string, codec: Codec): (m: map<string, Value>)
    ensures m.Keys !! SigningKeys
    ensures forall key | key !in SigningKeys ::
              key in m <==> |ValuesOf(codec.parse(UrlQuery(url)), key)| > 0
    ensures forall key | key in m :: m[key] == Collapse(ValuesOf(codec.parse(UrlQuery(url)), key))
  {
    var ps := codec.parse(UrlQuery(url));
    var m := Group(ps) - SigningKeys;
    forall key ensures key in Group(ps) <==> |ValuesOf(ps, key)| > 0
      ensures key in Group(ps) ==> Group(ps)[key] == Collapse(ValuesOf(ps, key))
    {
      GroupByKey(ps, key);
    }
    m
  }

  /** `cacheKeyFor`: the URL before its query, followed by `?` and the
      remaining parameters when any remain. */
  function CacheKeyFor(url: string, codec: Codec): (key: string)
    ensures codec.stringify(CacheParams(url, codec)) == "" ==> key == UrlBase(url)
    ensures codec.stringify(CacheParams(url, codec)) != "" ==>
              key == UrlBase(url) + "?" + codec.stringify(CacheParams(url, codec))
  {
    var query := codec.stringify(CacheParams(url, codec));
    UrlBase(url) + (if query != "" then "?" + query else "")
  }

  /** The URL of a request and the cache parameters it yields, once the base
      carries no `?`: the query is read back exactly as serialised. */
  lemma RequestUrlParams(baseUrl: string, path: string, params: seq<Param>, codec: Codec)
    requires Lawful(codec)
    requires '?' !in JoinBase(baseUrl, path)
    ensures UrlBase(RequestUrl(baseUrl, path, params, codec)) == JoinBase(baseUrl, path)
    ensures CacheParams(RequestUrl(baseUrl, path, params, codec), codec) == Group(params) - SigningKeys
  {
    var url := RequestUrl(baseUrl, path, params, codec);
    SplitAtFirstMark(JoinBase(baseUrl, path), codec.serialize(params));
    if params == [] {
      assert url == JoinBase(baseUrl, path);
      assert codec.parse(codec.serialize([])) == [];
    } else {
      assert url == JoinBase(baseUrl, path) + "?" + codec.serialize(params);
    }
    assert codec.parse(UrlQuery(url)) == params;
    var m := CacheParams(url, codec);
    forall key ensures key in Group(params) <==> |ValuesOf(params, key)| > 0
      ensures key in Group(params) ==> Group(params)[key] == Collapse(ValuesOf(params, key))
    {
      GroupByKey(params, key);
    }
    assert m.Keys == (Group(params) - SigningKeys).Keys;
  }

  /** Signing leaves the cache key alone: the signed request's URL has the
      cache key the unsigned request's URL has. */
  lemma CacheKeyIgnoresSigning(baseUrl: string, req: Request, inputs: Inputs, codec: Codec)
    requires Lawful(codec)
    requires '?' !in JoinBase(baseUrl, req.path)
    ensures var signed := SignRequest(req, inputs, codec);
            CacheKeyFor(RequestUrl(baseUrl, signed.path, signed.params, codec), codec)
              == CacheKeyFor(RequestUrl(baseUrl, req.path, req.params, codec), codec)
  {
    var signed := SignRequest(req, inputs, codec);
    var tail := signed.params[|req.params|..];
    assert signed.params == req.params + tail;
    assert forall i | 0 <= i < |tail| :: tail[i].key == Keys(tail)[i];
    GroupIgnoresDroppedTail(req.params, tail, SigningKeys);
    RequestUrlParams(baseUrl, signed.path, signed.params, codec);
    RequestUrlParams(baseUrl, req.path, req.params, codec);
  }

  /** Two signings of one request, with any nonces and clocks, share their
      cache key, so the second is served from the cache or de-duplicated. */
  lemma SigningsShareCacheKey(baseUrl: string, req: Request, i1: Inputs, i2: Inputs, codec: Codec)
    requires Lawful(codec)
    requires '?' !in JoinBase(baseUrl, req.path)
    ensures var s1 := SignRequest(req, i1, codec);
            var s2 := SignRequest(req, i2, codec);
            CacheKeyFor(RequestUrl(baseUrl, s1.path, s1.params, codec), codec)
              == CacheKeyFor(RequestUrl(baseUrl, s2.path, s2.params, codec), codec)
  {
    CacheKeyIgnoresSigning(baseUrl, req, i1, codec);
    CacheKeyIgnoresSigning(baseUrl, req, i2, codec);
  }

  /** The suffix of a key after its base gives back the query. */
  function QueryOfKey(base: string, key: string): string
    requires |base| <= |key|
  {
    var rest := key[|base|..];
    if rest == [] then "" else rest[1..]
  }

  lemma QueryRecoveredFromKey(base: string, query: string)
    ensures var key := base + (if query != "" then "?" + query else "");
            |base| <= |key| && QueryOfKey(base, key) == query
  {
    var key := base + (if query != "" then "?" + query else "");
    assert key[|base|..] == (if query != "" then "?" + query else "");
  }

  /** Only the signing parameters are forgotten: two requests to one path
      whose other parameters serialise differently keep distinct cache keys. */
  lemma OtherParamsKeepKeysApart(baseUrl: string, path: string, p1: seq<Param>, p2: seq<Param>, codec: Codec)
    requires Lawful(codec)
    requires '?' !in JoinBase(baseUrl, path)
    requires codec.stringify(Group(p1) - SigningKeys) != codec.stringify(Group(p2) - SigningKeys)
    ensures CacheKeyFor(RequestUrl(baseUrl, path, p1, codec), codec)
              != CacheKeyFor(RequestUrl(baseUrl, path, p2, codec), codec)
  {
    RequestUrlParams(baseUrl, path, p1, codec);
    RequestUrlParams(baseUrl, path, p2, codec);
    var base := JoinBase(baseUrl, path);
    QueryRecoveredFromKey(base, codec.stringify(Group(p1) - SigningKeys));
    QueryRecoveredFromKey(base, codec.stringify(Group(p2) - SigningKeys));
  }
}

=== FILE: contributor.dfy ===
/** Field resolvers of the Contributor type: `statistics` and `links` through
    the summary/detail path, and `characterName`, which only a summary
    carries. */
module ContributorResolvers {
  import opened Json
  import opened FieldDispatch
  import opened SummaryDetail
  import Upstream

  /** Fields resolved generically through the summary/detail path. */
  const ContributorDetailFields: set<string> := {"statistics", "links"}

  /** `Contributor.characterName`: the summary's own value, verbatim (possibly
      `undefined`); `null` on a detail, whatever the payload holds. */
  function CharacterName(contributor: Value): (r: Upstream.Fetched<Value>)
    requires contributor.Present()
    ensures r.requests == []
    ensures IsSummary(Contributor, contributor) ==> r.result == Ok(Prop(contributor, "characterName"))
    ensures !IsSummary(Contributor, contributor) ==> r.result == Ok(Null)
  {
    if IsSummary(Contributor, contributor) then
      Upstream.Fetched(Ok(Prop(contributor, "characterName")), [])
    else
      Upstream.Fetched(Ok(Null), [])
  }

  /** The inverted rule: a summary and the detail it projects may disagree on
      `characterName`; the detail always answers `null`, even when it carries
      a name. */
  lemma CharacterNameInverted(fields: map<string, Value>, name: string)
    requires "links" in fields && fields["links"] != Undefined
    ensures CharacterName(Obj(fields["characterName" := Str(name)])).result == Ok(Null)
    ensures CharacterName(Obj(fields - {"links"} + map["characterName" := Str(name)])).result == Ok(Str(name))
  {
    var summary := Obj(fields - {"links"} + map["characterName" := Str(name)]);
    assert IsSummary(Contributor, summary);
  }

  /** The Contributor resolver table; any other field falls back to `fieldResolver`. */
  function ResolveContributorField(contributor: Value, fieldName: string, args: Value, call: Call,
                                   api: Upstream.Api): Upstream.Fetched<Value>
    requires contributor.Present()
  {
    if fieldName == "characterName" then CharacterName(contributor)
    else if fieldName in ContributorDetailFields then
      FetchFromDetailIfSummary(Contributor, contributor, args, fieldName, call, api)
    else Upstream.Fetched(FieldResolver(contributor, args, fieldName, call), [])
  }

  /** `statistics` and `links` are read from the chosen payload: after exactly
      one `contributor/<id>` request for a summary, with none for a detail. */
  lemma ContributorFieldFromPayload(contributor: Value, fieldName: string, args: Value, call: Call,
                                    api: Upstream.Api)
    requires contributor.Present() && fieldName in ContributorDetailFields
    ensures var r := ResolveContributorField(contributor, fieldName, args, call, api);
            && r.requests == (if IsSummary(Contributor, contributor)
                              then [Upstream.Path(Upstream.Contributor(ToStr(Prop(contributor, "id"))))] else [])
            && (Payload(Contributor, contributor, api).Err? ==> r.result == Payload(Contributor, contributor, api))
            && (Payload(Contributor, contributor, api).Ok? ==>
                  r.result == FieldResolver(Payload(Contributor, contributor, api).value, args, fieldName, call))
  {
  }
}

=== FILE: field_resolver.dfy ===
/** The server-wide default field resolver: read the requested property of
    the parent value, invoking it when it is a function. */
module FieldDispatch {
  import opened Json

  /** Invokes a function-valued property as `source[fieldName](args, context, info)`:
      given the function, the `this` value, the arguments and the field name.
      The request context and the function's own behaviour live inside it. */
  type Call = (Value, Value, Value, string) -> Result<Value>

  /** `fieldResolver(source, args, context, info)`. Property access is attempted
      only on values whose `typeof` is "object" or "function"; `null` has typeof
      "object", so reading a field of it throws. */
  function FieldResolver(source: Value, args: Value, fieldName: string, call: Call): (r: Result<Value>)
    ensures source.Null? ==> r == Err(TypeError)
    ensures source.TypeOf() != "object" && source.TypeOf() != "function" ==> r == Ok(Undefined)
    ensures source.Present() && Prop(source, fieldName).Fn? ==>
              r == call(Prop(source, fieldName), source, args, fieldName)
    ensures r.Err? && !source.Null? ==> Prop(source, fieldName).Fn?
  {
    if source.TypeOf() == "object" || source.TypeOf() == "function" then
      var property :- Get(source, fieldName);
      if property.TypeOf() == "function" then
        call(property, source, args, fieldName)
      else if property.TypeOf() != "undefined" then
        Ok(property)
      else
        Ok(Undefined)
    else
      Ok(Undefined)
  }

  /** Apart from the null source and function-valued fields, the dispatch is a
      plain structural read: a defined value (`null` included) comes back
      unchanged, and an absent field or non-object source gives `undefined`. */
  lemma PlainRead(source: Value, args: Value, fieldName: string, call: Call)
    requires !source.Null?
    requires !Prop(source, fieldName).Fn?
    ensures FieldResolver(source, args, fieldName, call) == Ok(Prop(source, fieldName))
  {
  }

  /** A field holding `null` resolves to `null`, not to "unresolved". */
  lemma NullFieldIsReturned(fields: map<string, Value>, args: Value, fieldName: string, call: Call)
    requires fieldName in fields && fields[fieldName] == Null
    ensures FieldResolver(Obj(fields), args, fieldName, call) == Ok(Null)
  {
  }

  /** The invoker is consulted only for a function-valued field. */
  lemma CallOnlyForFunctions(source: Value, args: Value, fieldName: string, call1: Call, call2: Call)
    requires !(source.Present() && Prop(source, fieldName).Fn?)
    ensures FieldResolver(source, args, fieldName, call1) == FieldResolver(source, args, fieldName, call2)
  {
  }
}

=== FILE: film.dfy ===
/** Field resolvers of the Film type: the generic summary/detail fields, and
    the overrides for `alternativeNames`, `contributions` and `directors`. */
module FilmResolvers {
  import opened Json
  import opened FieldDispatch
  import opened SummaryDetail
  import Upstream

  /** `contribution.type === t` */
  predicate HasType(c: Value, t: Value) {
    StrictEquals(Prop(c, "type"), t)
  }

  /** `a` is `b` with some elements left out, order kept. */
  ghost predicate IsSubsequence(a: seq<Value>, b: seq<Value>)
    decreases |b|
  {
    if a == [] then true
    else if b == [] then false
    else if a[0] == b[0] then IsSubsequence(a[1..], b[1..])
    else IsSubsequence(a, b[1..])
  }

  /** How many elements of `items` have type `t`. */
  ghost function CountOfType(items: seq<Value>, t: Value): nat
    decreases |items|
  {
    if items == [] then 0
    else (if HasType(items[0], t) then 1 else 0) + CountOfType(items[1..], t)
  }

  /** `items.filter(c => c.type === t)`. Reading `.type` of a `null` element
      throws, so the filter succeeds exactly when every element is present;
      it then keeps precisely the elements of type `t`, in order. */
  function FilterByType(items: seq<Value>, t: Value): (r: Result<seq<Value>>)
    ensures r.Ok? <==> forall i | 0 <= i < |items| :: items[i].Present()
    ensures r.Ok? ==> forall x | x in r.value :: HasType(x, t)
    ensures r.Ok? ==> IsSubsequence(r.value, items)
    ensures r.Ok? ==> |r.value| == CountOfType(items, t)
    decreases |items|
  {
    if items == [] then Ok([])
    else
      var c := items[0];
      var ty :- Get(c, "type");
      var rest :- FilterByType(items[1..], t);
      if StrictEquals(ty, t) then Ok([c] + rest)
      else
        // every kept element has type `t` and `c` has not, so `c` is skipped
        assert !HasType(c, t);
        assert rest != [] ==> rest[0] in rest && HasType(rest[0], t);
        Ok(rest)
  }

  /** `items.findIndex(c => c.type === t)`, which stops at the first match:
      `Some(i)` for the first element of type `t`, `None` when every element
      was read and none matched, and an error when a `null` element is read
      before any match. */
  function FindByType(items: seq<Value>, t: Value): (r: Result<Option<nat>>)
    ensures r.Ok? && r.value.Some? ==>
              && r.value.value < |items|
              && HasType(items[r.value.value], t)
              && forall j | 0 <= j < r.value.value :: items[j].Present() && !HasType(items[j], t)
    ensures r == Ok(None) <==> forall j | 0 <= j < |items| :: items[j].Present() && !HasType(items[j], t)
    ensures r.Err? ==>
              exists i | 0 <= i < |items| ::
                && !items[i].Present()
                && forall j | 0 <= j < i :: items[j].Present() && !HasType(items[j], t)
    decreases |items|
  {
    if items == [] then Ok(None)
    else
      var ty :- Get(items[0], "type");
      if StrictEquals(ty, t) then Ok(Some(0))
      else
        var found :- FindByType(items[1..], t);
        match found
        case None => Ok(None)
        case Some(i) => Ok(Some(i + 1))
  }

  /** `film.alternativeNames === undefined ? [] : film.alternativeNames`;
      never a request, on either representation. */
  function AlternativeNames(film: Value): (r: Upstream.Fetched<Value>)
    requires film.Present()
    ensures r.requests == []
    ensures Prop(film, "alternativeNames") == Undefined ==> r.result == Ok(Arr([]))
    ensures Prop(film, "alternativeNames") != Undefined ==> r.result == Ok(Prop(film, "alternativeNames"))
  {
    var names := Prop(film, "alternativeNames");
    Upstream.Fetched(Ok(if names == Undefined then Arr([]) else names), [])
  }

  /** `alternativeNames` is always defined, and it only replaces an absent
      field: wherever the field holds a value, the override answers what the
      plain `fieldResolver` would. */
  lemma AlternativeNamesDefaultsOnly(film: Value, args: Value, call: Call)
    requires film.Present()
    ensures AlternativeNames(film).result.Ok? && AlternativeNames(film).result.value != Undefined
    ensures Prop(film, "alternativeNames") != Undefined && !Prop(film, "alternativeNames").Fn? ==>
              AlternativeNames(film).result == FieldResolver(film, args, "alternativeNames", call)
  {
  }

  /** `contributions.filter(c => c.type === t)` applied to a resolved value;
      an error, or a value that is not an array, throws. */
  function FilterContributions(resolved: Result<Value>, t: Value): (r: Result<Value>)
    ensures resolved.Err? ==> r == resolved
    ensures resolved.Ok? && !resolved.value.Arr? ==> r == Err(TypeError)
  {
    match resolved
    case Err(e) => Err(e)
    case Ok(list) =>
      if list.Arr? then
        match FilterByType(list.items, t)
        case Ok(kept) => Ok(Arr(kept))
        case Err(e) => Err(e)
      else
        Err(TypeError)
  }

  /** `Film.contributions` with an async `fetchFromDetailIfFilmSummary`: the
      full list resolved through the summary/detail path, then filtered by
      `args.type` when that argument is truthy. */
  function Contributions(film: Value, args: Value, call: Call, api: Upstream.Api): (r: Upstream.Fetched<Value>)
    requires film.Present()
    ensures r.requests == FetchFromDetailIfSummary(Film, film, args, "contributions", call, api).requests
    ensures !Truthy(Prop(args, "type")) ==>
              r.result == FetchFromDetailIfSummary(Film, film, args, "contributions", call, api).result
  {
    var resolved := FetchFromDetailIfSummary(Film, film, args, "contributions", call, api);
    if Truthy(Prop(args, "type")) then
      Upstream.Fetched(FilterContributions(resolved.result, Prop(args, "type")), resolved.requests)
    else
      resolved
  }

  /** With a type argument, the result is exactly the contributions of that
      type, in their original order. */
  lemma ContributionsOfType(film: Value, args: Value, call: Call, api: Upstream.Api, list: seq<Value>)
    requires film.Present() && Truthy(Prop(args, "type"))
    requires FetchFromDetailIfSummary(Film, film, args, "contributions", call, api).result == Ok(Arr(list))
    requires forall i | 0 <= i < |list| :: list[i].Present()
    ensures var r := Contributions(film, args, call, api);
            && r.result.Ok? && r.result.value.Arr?
            && (forall x | x in r.result.value.items :: HasType(x, Prop(args, "type")))
            && IsSubsequence(r.result.value.items, list)
            && |r.result.value.items| == CountOfType(list, Prop(args, "type"))
  {
  }

  /** `Film.contributions` in index.js, where `fetchFromDetailIfFilmSummary` is
      not async: on a detail it returns a plain value, and calling `.then` on
      it throws whenever a type argument is given. */
  function ContributionsIndexJs(film: Value, args: Value, call: Call, api: Upstream.Api): (r: Upstream.Fetched<Value>)
    requires film.Present()
    ensures r.requests == FetchFromDetailIfSummary(Film, film, args, "contributions", call, api).requests
    ensures IsSummary(Film, film) ==> r == Contributions(film, args, call, api)
    ensures !IsSummary(Film, film) && Truthy(Prop(args, "type")) ==> r.result.Err?
  {
    var resolved := FetchFromDetailIfSummary(Film, film, args, "contributions", call, api);
    if Truthy(Prop(args, "type")) then
      if IsSummary(Film, film) then
        Upstream.Fetched(FilterContributions(resolved.result, Prop(args, "type")), resolved.requests)
      else
        Upstream.Fetched(if resolved.result.Err? then resolved.result else Err(TypeError), resolved.requests)
    else
      resolved
  }

  /** The defect: a detail film with a well-formed contributions list and a
      type argument fails in index.js, where the async version filters. */
  lemma ContributionsIndexJsThrowsOnDetail(call: Call, api: Upstream.Api)
    ensures var director := Obj(map["type" := Str("Director")]);
            var film := Obj(map["id" := Str("42"), "trailer" := Null, "contributions" := Arr([director])]);
            var args := Obj(map["type" := Str("Director")]);
            && ContributionsIndexJs(film, args, call, api).result == Err(TypeError)
            && Contributions(film, args, call, api).result == Ok(Arr([director]))
  {
    var director := Obj(map["type" := Str("Director")]);
    var film := Obj(map["id" := Str("42"), "trailer" := Null, "contributions" := Arr([director])]);
    var args := Obj(map["type" := Str("Director")]);
    assert !IsSummary(Film, film);
    assert Prop(film, "contributions") == Arr([director]);
    assert FieldResolver(film, args, "contributions", call) == Ok(Arr([director]));
    assert [director][1..] == [];
    assert Prop(director, "type") == Str("Director");
    var kept := FilterByType([director], Str("Director"));
    assert CountOfType([director], Str("Director")) == 1 by {
      assert CountOfType([director][1..], Str("Director")) == 0;
    }
    assert kept.Ok? && |kept.value| == 1;
    assert IsSubsequence(kept.value, [director]);
    assert kept.value[0] == director by {
      assert !IsSubsequence(kept.value, []);
    }
    assert kept.value == [director];
  }

  /** `Film.directors`. A summary answers with its own `directors` field; a
      detail takes the contributors of the first `Director` contribution,
      or `[]`. No request either way. */
  function Directors(film: Value): (r: Upstream.Fetched<Value>)
    requires film.Present()
    ensures r.requests == []
    ensures IsSummary(Film, film) ==> r.result == Ok(Prop(film, "directors"))
    ensures !IsSummary(Film, film) && !Prop(film, "contributions").Arr? ==> r.result == Err(TypeError)
  {
    if IsSummary(Film, film) then
      Upstream.Fetched(Ok(Prop(film, "directors")), [])
    else
      var contributions := Prop(film, "contributions");
      if !contributions.Arr? then
        // `undefined.find(…)`, or a value without a `find` method
        Upstream.Fetched(Err(TypeError), [])
      else
        match FindByType(contributions.items, Str("Director"))
        case Err(e) => Upstream.Fetched(Err(e), [])
        case Ok(index) =>
          var directorContributions := if index.Some? then contributions.items[index.value] else Undefined;
          if Truthy(directorContributions) then
            Upstream.Fetched(Get(directorContributions, "contributors"), [])
          else
            Upstream.Fetched(Ok(Arr([])), [])
  }

  /** On a detail, the contributors of the first `Director` entry. */
  lemma DirectorsFromFirstDirector(film: Value, i: nat)
    requires film.Present() && !IsSummary(Film, film)
    requires Prop(film, "contributions").Arr?
    requires var cs := Prop(film, "contributions").items;
             && i < |cs| && HasType(cs[i], Str("Director"))
             && forall j | 0 <= j < i :: cs[j].Present() && !HasType(cs[j], Str("Director"))
    ensures Directors(film).result == Ok(Prop(Prop(film, "contributions").items[i], "contributors"))
  {
    var cs := Prop(film, "contributions").items;
  }

  /** On a detail with no `Director` entry, `[]`. */
  lemma DirectorsWithoutDirector(film: Value)
    requires film.Present() && !IsSummary(Film, film)
    requires Prop(film, "contributions").Arr?
    requires var cs := Prop(film, "contributions").items;
             forall j | 0 <= j < |cs| :: cs[j].Present() && !HasType(cs[j], Str("Director"))
    ensures Directors(film).result == Ok(Arr([]))
  {
  }

  /** The director-derivation example: the `Director` entry's contributors,
      not the actor's. */
  lemma DirectorsExample()
    ensures var d := Obj(map["contributors" := Arr([Obj(map["id" := Str("d1")])]), "type" := Str("Director")]);
            var a := Obj(map["contributors" := Arr([Obj(map["id" := Str("a1")])]), "type" := Str("Actor")]);
            var film := Obj(map["trailer" := Null, "contributions" := Arr([d, a])]);
            Directors(film).result == Ok(Arr([Obj(map["id" := Str("d1")])]))
  {
    var d := Obj(map["contributors" := Arr([Obj(map["id" := Str("d1")])]), "type" := Str("Director")]);
    var a := Obj(map["contributors" := Arr([Obj(map["id" := Str("a1")])]), "type" := Str("Actor")]);
    var film := Obj(map["trailer" := Null, "contributions" := Arr([d, a])]);
    assert Prop(film, "contributions").items == [d, a];
    assert HasType(d, Str("Director"));
    DirectorsFromFirstDirector(film, 0);
  }

  /** A summary film `{id: "42"}` answers `directors` from its own (absent)
      field: `undefined`, and no detail request. */
  lemma DirectorsOnBareSummary()
    ensures var r := Directors(Obj(map["id" := Str("42")]));
            r.result == Ok(Undefined) && r.requests == []
  {
    assert IsSummary(Film, Obj(map["id" := Str("42")]));
  }

  /** Fields resolved generically through the summary/detail path. */
  const FilmDetailFields: set<string> :=
    {"backdropFocalPoint", "description", "tagline", "genres", "trailer", "backdrop"}

  /** The Film resolver table; any other field falls back to `fieldResolver`. */
  function ResolveFilmField(film: Value, fieldName: string, args: Value, call: Call,
                            api: Upstream.Api): Upstream.Fetched<Value>
    requires film.Present()
  {
    if fieldName == "alternativeNames" then AlternativeNames(film)
    else if fieldName == "contributions" then Contributions(film, args, call, api)
    else if fieldName == "directors" then Directors(film)
    else if fieldName in FilmDetailFields then FetchFromDetailIfSummary(Film, film, args, fieldName, call, api)
    else Upstream.Fetched(FieldResolver(film, args, fieldName, call), [])
  }

  /** A Film field costs one request, for the film's own detail, exactly when
      the film is a summary and the field needs the detail; otherwise none. */
  lemma FilmFieldRequests(film: Value, fieldName: string, args: Value, call: Call, api: Upstream.Api)
    requires film.Present()
    ensures var r := ResolveFilmField(film, fieldName, args, call, api);
            && |r.requests| == (if IsSummary(Film, film) && (fieldName in FilmDetailFields || fieldName == "contributions") then 1 else 0)
            && forall p | p in r.requests :: p == DetailPath(Film, film)
  {
  }
}

=== FILE: index_requests.dfy ===
/** The hand-rolled request path of index.js, used by the Query resolvers
    that bypass the data source: `buildUrl` signs a URL as a string,
    `request` and `formRequest` choose the headers, and `generateToken`
    posts a login form. */
module IndexRequests {
  import opened Json
  import opened QueryString
  import Signing

  /** A call handed to `fetch`: verb, URL, header object, body. */
  datatype HttpCall = HttpCall(verb: string, url: string, headers: map<string, string>, body: Value)

  /** The URL before any signing parameter: production base, `/`, path. */
  function PathUrl(path: string): string {
    Signing.ApiBaseUrl + "/" + path
  }

  /** `?` opens the query unless the URL already has one, in which case `&`
      continues it. */
  function Separator(url: string): string {
    if '?' in url then "&" else "?"
  }

  /** `apikey=…&nonce=…&timestamp=…`, written raw into the URL. */
  function AuthQuery(inputs: Signing.Inputs): string {
    "apikey=" + inputs.creds.apiKey + "&nonce=" + inputs.nonce
      + "&timestamp=" + Decimal(Signing.TimestampSeconds(inputs.nowMs))
  }

  /** The URL that is signed: everything `buildUrl` returns except the
      trailing `&signature=…`. */
  function UnsignedUrl(path: string, inputs: Signing.Inputs): string {
    PathUrl(path) + Separator(PathUrl(path)) + AuthQuery(inputs)
  }

  /** `buildUrl(method, path, body)`: the path URL, then the three signing
      parameters in order after `?` or `&`, then the signature of the verb,
      that URL and the body. */
  function BuildUrl(verb: string, path: string, body: Value, inputs: Signing.Inputs): (url: string)
    ensures |PathUrl(path)| < |url| && url[..|PathUrl(path)|] == PathUrl(path)
    ensures url[|PathUrl(path)|] == (if '?' in path then '&' else '?')
    ensures url == UnsignedUrl(path, inputs) + "&signature="
                   + inputs.hmac(inputs.creds.secret, Signing.SaltedString(verb, UnsignedUrl(path, inputs), body))
  {
    SeparatorFollowsPath(path);
    var unsigned := UnsignedUrl(path, inputs);
    var signature := inputs.hmac(inputs.creds.secret, Signing.SaltedString(verb, unsigned, body));
    assert (unsigned + "&signature=" + signature)[..|PathUrl(path)|] == PathUrl(path);
    unsigned + "&signature=" + signature
  }

  /** The base URL carries no `?`, so the separator depends on the path only. */
  lemma SeparatorFollowsPath(path: string)
    ensures Separator(PathUrl(path)) == (if '?' in path then "&" else "?")
  {
    var prefix := Signing.ApiBaseUrl + "/";
    assert '?' !in prefix;
    assert PathUrl(path) == prefix + path;
    assert '?' in path ==> '?' in PathUrl(path) by {
      if '?' in path {
        var i :| 0 <= i < |path| && path[i] == '?';
        assert PathUrl(path)[|prefix| + i] == '?';
      }
    }
  }

  /** The position of the last `&` in `s`, or -1 when there is none. */
  function LastAmp(s: string): (i: int)
    ensures -1 <= i < |s|
    ensures i >= 0 ==> s[i] == '&'
    decreases |s|
  {
    if s == [] then -1
    else if s[|s| - 1] == '&' then |s| - 1
    else LastAmp(s[..|s| - 1])
  }

  lemma {:induction false} LastAmpBeforeTail(a: string, t: string)
    requires '&' !in t
    ensures LastAmp(a + "&" + t) == |a|
    decreases |t|
  {
    var s := a + "&" + t;
    if t != [] {
      assert s[|s| - 1] == t[|t| - 1];
      assert s[..|s| - 1] == a + "&" + t[..|t| - 1];
      LastAmpBeforeTail(a, t[..|t| - 1]);
    } else {
      assert s[|s| - 1] == '&';
    }
  }

  /** How the API checks a URL built this way: the part after the last `&`
      is `signature=` and the HMAC of the verb, everything before that `&`,
      and the body. */
  predicate UrlSignatureValid(url: string, verb: string, body: Value, secret: string, hmac: Signing.Hmac) {
    var i := LastAmp(url);
    && i >= 0
    && url[i + 1..] == "signature=" + hmac(secret, Signing.SaltedString(verb, url[..i], body))
  }

  /** A hex digest holds no `&`, so the signature appended last is found
      again, and it covers the whole URL before it. */
  lemma BuildUrlIsValid(verb: string, path: string, body: Value, inputs: Signing.Inputs)
    requires '&' !in inputs.hmac(inputs.creds.secret, Signing.SaltedString(verb, UnsignedUrl(path, inputs), body))
    ensures UrlSignatureValid(BuildUrl(verb, path, body, inputs), verb, body, inputs.creds.secret, inputs.hmac)
  {
    var unsigned := UnsignedUrl(path, inputs);
    var signature := inputs.hmac(inputs.creds.secret, Signing.SaltedString(verb, unsigned, body));
    var url := BuildUrl(verb, path, body, inputs);
    assert "signature=" == ['s', 'i', 'g', 'n', 'a', 't', 'u', 'r', 'e', '='];
    assert '&' !in "signature=" + signature;
    assert url == unsigned + "&" + ("signature=" + signature);
    LastAmpBeforeTail(unsigned, "signature=" + signature);
    assert url[..|unsigned|] == unsigned;
    assert url[|unsigned| + 1..] == "signature=" + signature;
  }

  /** For a path without a query, and a serialiser that writes the three
      signing parameters as they are, index.js's `buildUrl` and the data
      source's `signRequest` hash the same string, so they sign alike. */
  lemma BuildUrlAgreesWithSignRequest(verb: string, path: string, body: Value,
                                      inputs: Signing.Inputs, codec: Codec)
    requires '?' !in path
    requires codec.serialize(Signing.AuthParams(inputs)) == AuthQuery(inputs)
    ensures Signing.SaltedString(verb, UnsignedUrl(path, inputs), body)
            == Signing.SaltedOf(Signing.Request(verb, path, [], body), inputs, codec)
  {
    SeparatorFollowsPath(path);
    assert [] + Signing.AuthParams(inputs) == Signing.AuthParams(inputs);
  }

  /** The header object `request` sends. */
  function RequestHeaders(body: Value, accessToken: Value): (h: map<string, string>)
    ensures "Accept" in h && h["Accept"] == "application/json"
    ensures "Accept-Encoding" in h && h["Accept-Encoding"] == "gzip"
    ensures "Content-Type" in h <==> Truthy(body)
    ensures "Content-Type" in h ==> h["Content-Type"] == "application/json"
    ensures "Authorization" in h <==> Truthy(accessToken)
    ensures "Authorization" in h ==> h["Authorization"] == "Bearer " + ToStr(accessToken)
    ensures h.Keys <= {"Accept", "Accept-Encoding", "Content-Type", "Authorization"}
  {
    var base := map["Accept" := "application/json", "Accept-Encoding" := "gzip"];
    var withType := if Truthy(body) then base["Content-Type" := "application/json"] else base;
    if Truthy(accessToken) then withType["Authorization" := "Bearer " + ToStr(accessToken)] else withType
  }

  /** `request(method, path, body, accessToken)`: a URL signed over this
      very body, JSON content only with a body, a bearer token only with a
      token. */
  function Request(verb: string, path: string, body: Value, accessToken: Value,
                   inputs: Signing.Inputs): (call: HttpCall)
    ensures call.verb == verb && call.body == body
    ensures |PathUrl(path)| < |call.url| && call.url[..|PathUrl(path)|] == PathUrl(path)
    ensures '&' !in inputs.hmac(inputs.creds.secret, Signing.SaltedString(verb, UnsignedUrl(path, inputs), body)) ==>
              UrlSignatureValid(call.url, verb, call.body, inputs.creds.secret, inputs.hmac)
    ensures "Content-Type" in call.headers <==> Truthy(body)
    ensures "Authorization" in call.headers <==> Truthy(accessToken)
    ensures "Authorization" in call.headers ==> call.headers["Authorization"] == "Bearer " + ToStr(accessToken)
  {
    var url := BuildUrl(verb, path, body, inputs);
    var call := HttpCall(verb, url, RequestHeaders(body, accessToken), body);
    if '&' in inputs.hmac(inputs.creds.secret, Signing.SaltedString(verb, UnsignedUrl(path, inputs), body)) then call
    else BuildUrlIsValid(verb, path, body, inputs); call
  }

  /** The header object `formRequest` sends: always a form body, never a token. */
  function FormHeaders(): (h: map<string, string>)
    ensures "Authorization" !in h
    ensures "Content-Type" in h && h["Content-Type"] == "application/x-www-form-urlencoded"
    ensures "Accept" in h && h["Accept"] == "application/json"
    ensures "Accept-Encoding" in h && h["Accept-Encoding"] == "gzip"
    ensures h.Keys == {"Accept", "Accept-Encoding", "Content-Type"}
  {
    map["Accept" := "application/json", "Accept-Encoding" := "gzip",
        "Content-Type" := "application/x-www-form-urlencoded"]
  }

  /** `formRequest(method, path, body)`: a URL signed over the form body,
      sent as a form and never with a token. */
  function FormRequest(verb: string, path: string, body: Value, inputs: Signing.Inputs): (call: HttpCall)
    ensures call.verb == verb && call.body == body
    ensures |PathUrl(path)| < |call.url| && call.url[..|PathUrl(path)|] == PathUrl(path)
    ensures '&' !in inputs.hmac(inputs.creds.secret, Signing.SaltedString(verb, UnsignedUrl(path, inputs), body)) ==>
              UrlSignatureValid(call.url, verb, call.body, inputs.creds.secret, inputs.hmac)
    ensures "Authorization" !in call.headers
    ensures "Content-Type" in call.headers && call.headers["Content-Type"] == "application/x-www-form-urlencoded"
  {
    var url := BuildUrl(verb, path, body, inputs);
    var call := HttpCall(verb, url, FormHeaders(), body);
    if '&' in inputs.hmac(inputs.creds.secret, Signing.SaltedString(verb, UnsignedUrl(path, inputs), body)) then call
    else BuildUrlIsValid(verb, path, body, inputs); call
  }

  /** The fields of the login form: the caller's username and password and a
      fixed password grant, nothing else. */
  function TokenForm(args: Value): (form: map<string, Value>)
    ensures form.Keys == {"username", "password", "grant_type"}
    ensures form["username"] == Prop(args, "username") && form["password"] == Prop(args, "password")
    ensures form["grant_type"] == Str("password")
  {
    map["username" := Prop(args, "username"), "password" := Prop(args, "password"),
        "grant_type" := Str("password")]
  }

  /** `generateToken`: the serialised form is POSTed to `auth/token` as a
      form request, under no bearer token. */
  function GenerateToken(args: Value, inputs: Signing.Inputs, codec: Codec): (call: HttpCall)
    ensures call.verb == "POST"
    ensures call.body == Str(codec.stringify(TokenForm(args)))
    ensures |PathUrl("auth/token")| < |call.url| && call.url[..|PathUrl("auth/token")|] == PathUrl("auth/token")
    ensures "Authorization" !in call.headers
  {
    FormRequest("POST", "auth/token", Str(codec.stringify(TokenForm(args))), inputs)
  }

  /** The login form is covered by the signature: the token URL verifies
      against the form body, and that body closes the signed string. */
  lemma TokenSignatureCoversForm(args: Value, inputs: Signing.Inputs, codec: Codec)
    requires codec.stringify(TokenForm(args)) != ""
    requires '&' !in inputs.hmac(inputs.creds.secret,
               Signing.SaltedString("POST", UnsignedUrl("auth/token", inputs), Str(codec.stringify(TokenForm(args)))))
    ensures var call := GenerateToken(args, inputs, codec);
            UrlSignatureValid(call.url, "POST", call.body, inputs.creds.secret, inputs.hmac)
    ensures var call := GenerateToken(args, inputs, codec);
            var salted := Signing.SaltedString("POST", UnsignedUrl("auth/token", inputs), call.body);
            salted[|salted| - |codec.stringify(TokenForm(args))|..] == codec.stringify(TokenForm(args))
  {
    var call := GenerateToken(args, inputs, codec);
    BuildUrlIsValid("POST", "auth/token", call.body, inputs);
  }
}

=== FILE: json.dfy ===
/** JavaScript values as the façade sees them: parsed JSON payloads, GraphQL
    argument objects and function-valued properties, together with the few
    language operations the resolvers rely on (property reads, truthiness,
    strict equality and template-literal string conversion). */
module Json {

  datatype Option<+T> = None | Some(value: T)

  /** The exceptions a resolver can raise: a property read or method call on
      the wrong kind of value, or an upstream HTTP failure. */
  datatype Error = TypeError | HttpError(status: int, body: string)

  /** A completion: a value, or a thrown (or rejected) error. */
  datatype Result<+T> = Ok(value: T) | Err(error: Error) {
    predicate IsFailure() { Err? }

    function PropagateFailure<U>(): Result<U>
      requires Err?
    {
      Err(error)
    }

    function Extract(): T
      requires Ok?
    {
      value
    }
  }

  /** A JavaScript value. Numbers are integers; `Fn` is a function-valued
      property, `text` being its source text (what `String(f)` prints), which
      also identifies it to whoever invokes it. */
  datatype Value =
    | Undefined
    | Null
    | Bool(b: bool)
    | Num(n: int)
    | Str(s: string)
    | Arr(items: seq<Value>)
    | Obj(fields: map<string, Value>)
    | Fn(text: string)
  {
    /** `typeof this` */
    function TypeOf(): string {
      match this
      case Undefined => "undefined"
      case Null => "object"
      case Bool(_) => "boolean"
      case Num(_) => "number"
      case Str(_) => "string"
      case Arr(_) => "object"
      case Obj(_) => "object"
      case Fn(_) => "function"
    }

    /** The value can be dereferenced: it is neither `null` nor `undefined`. */
    predicate Present() {
      !Undefined? && !Null?
    }
  }

  /** `v[key]` on a value that can be dereferenced: an object's own field, or
      `undefined`. Built-in properties of strings, arrays and functions
      (`length`, methods) are not modelled. */
  function Prop(v: Value, key: string): Value {
    if v.Obj? && key in v.fields then v.fields[key] else Undefined
  }

  /** `v.key`, which throws a TypeError when `v` is `null` or `undefined`. */
  function Get(v: Value, key: string): (r: Result<Value>)
    ensures r.Err? <==> !v.Present()
    ensures r.Ok? ==> r.value == Prop(v, key)
  {
    if v.Present() then Ok(Prop(v, key)) else Err(TypeError)
  }

  /** A key of a plain object, `undefined` when absent. */
  function Lookup(m: map<string, Value>, key: string): Value {
    if key in m then m[key] else Undefined
  }

  /** JavaScript truthiness, the condition `if (v)` takes. */
  predicate Truthy(v: Value) {
    match v
    case Undefined => false
    case Null => false
    case Bool(b) => b
    case Num(n) => n != 0
    case Str(s) => s != ""
    case Arr(_) => true
    case Obj(_) => true
    case Fn(_) => true
  }

  predicate IsPrimitive(v: Value) {
    !v.Arr? && !v.Obj? && !v.Fn?
  }

  /** `a === b`. Primitives compare by value. Arrays, objects and functions
      compare by reference; every compound value a resolver compares comes
      from its own JSON parse or argument object, so two of them are never
      the same reference. */
  predicate StrictEquals(a: Value, b: Value) {
    IsPrimitive(a) && a == b
  }

  /** The decimal digit character for `d`. */
  function DigitChar(d: nat): char
    requires d < 10
  {
    "0123456789"[d]
  }

  function DigitValue(c: char): nat {
    if '0' <= c <= '9' then (c as int - '0' as int) as nat else 0
  }

  predicate IsDigit(c: char) {
    '0' <= c <= '9'
  }

  /** The shortest decimal spelling of a natural number. */
  function NatDecimal(n: nat): (s: string)
    ensures |s| > 0
    ensures forall i | 0 <= i < |s| :: IsDigit(s[i])
    decreases n
  {
    if n < 10 then [DigitChar(n)] else NatDecimal(n / 10) + [DigitChar(n % 10)]
  }

  /** `String(n)` for an integer. */
  function Decimal(n: int): string {
    if n < 0 then "-" + NatDecimal(-n) else NatDecimal(n)
  }

  /** The number a string of digits spells. */
  function DigitsValue(s: string): nat
    decreases |s|
  {
    if s == [] then 0 else DigitsValue(s[..|s| - 1]) * 10 + DigitValue(s[|s| - 1])
  }

  /** Reads back what `Decimal` writes: an optional minus sign, then digits. */
  function ParseDecimal(s: string): int {
    if |s| > 0 && s[0] == '-' then -(DigitsValue(s[1..]) as int) else DigitsValue(s)
  }

  lemma {:induction false} NatDecimalRoundTrip(n: nat)
    ensures DigitsValue(NatDecimal(n)) == n
    decreases n
  {
    if n >= 10 {
      var s := NatDecimal(n);
      NatDecimalRoundTrip(n / 10);
      assert s[..|s| - 1] == NatDecimal(n / 10);
      assert DigitValue(DigitChar(n % 10)) == n % 10;
    } else {
      assert DigitValue(DigitChar(n)) == n;
    }
  }

  /** The decimal spelling of an integer determines the integer, so two
      different timestamps never print alike. */
  lemma DecimalRoundTrip(n: int)
    ensures ParseDecimal(Decimal(n)) == n
  {
    if n < 0 {
      NatDecimalRoundTrip(-n);
      assert Decimal(n)[1..] == NatDecimal(-n);
    } else {
      NatDecimalRoundTrip(n);
      assert IsDigit(NatDecimal(n)[0]);
    }
  }

  lemma DecimalInjective(a: int, b: int)
    requires Decimal(a) == Decimal(b)
    ensures a == b
  {
    DecimalRoundTrip(a);
    DecimalRoundTrip(b);
  }

  /** `String(v)`, the conversion a template literal `${v}` applies. */
  function ToStr(v: Value): string
    decreases v, 1
  {
    match v
    case Undefined => "undefined"
    case Null => "null"
    case Bool(b) => if b then "true" else "false"
    case Num(n) => Decimal(n)
    case Str(s) => s
    case Arr(items) => JoinFrom(v, 0)
    case Obj(_) => "[object Object]"
    case Fn(text) => text
  }

  /** `a.slice(i).join(",")`; `null` and `undefined` elements print as empty. */
  function JoinFrom(a: Value, i: nat): string
    requires a.Arr? && i <= |a.items|
    decreases a, 0, |a.items| - i
  {
    if i == |a.items| then ""
    else
      var x := a.items[i];
      var head := if x.Present() then ToStr(x) else "";
      if i + 1 == |a.items| then head else head + "," + JoinFrom(a, i + 1)
  }
}

=== FILE: list.dfy ===
/** Field resolvers of the List type: the generic summary/detail fields and
    the `tags` override, which reads the detail's `tags2` field. */
module ListResolvers {
  import opened Json
  import opened FieldDispatch
  import opened SummaryDetail
  import Upstream

  /** Fields resolved generically through the summary/detail path. */
  const ListDetailFields: set<string> :=
    {"hasEntriesWithNotes", "links", "canShareOn", "sharedOn", "whenCreated", "whenPublished"}

  /** `List.tags` as index.js writes it: a summary issues `GET list/<id>` and
      answers that payload's `tags2`; a detail answers its own `tags2`. */
  function Tags(list: Value, api: Upstream.Api): (r: Upstream.Fetched<Value>)
    requires list.Present()
    ensures IsSummary(List, list) ==> r.requests == [DetailPath(List, list)]
    ensures IsSummary(List, list) && api(DetailPath(List, list)).Err? ==> r.result == api(DetailPath(List, list))
    ensures IsSummary(List, list) && api(DetailPath(List, list)).Ok? ==>
              r.result == Get(api(DetailPath(List, list)).value, "tags2")
    ensures !IsSummary(List, list) ==> r.requests == [] && r.result == Ok(Prop(list, "tags2"))
  {
    if IsSummary(List, list) then
      var response := Upstream.Fetch(api, Upstream.Path(Upstream.List(ToStr(Prop(list, "id")))));
      match response.result
      case Err(e) => Upstream.Fetched(Err(e), response.requests)
      case Ok(json) => Upstream.Fetched(Get(json, "tags2"), response.requests)
    else
      Upstream.Fetched(Ok(Prop(list, "tags2")), [])
  }

  /** `List.tags` as src/resolvers.js and src/types/list/list.js write it: the
      summary branch calls `context.letterboxdAPI.getList`, but the context
      holds the data source under `dataSources`, so the call throws before
      any request is made. */
  function TagsViaContext(list: Value): (r: Upstream.Fetched<Value>)
    requires list.Present()
    ensures r.requests == []
    ensures IsSummary(List, list) ==> r.result == Err(TypeError)
    ensures !IsSummary(List, list) ==> r.result == Ok(Prop(list, "tags2"))
  {
    if IsSummary(List, list) then
      // `context.letterboxdAPI` is undefined, and reading `getList` of it throws
      Upstream.Fetched(Get(Undefined, "getList"), [])
    else
      Upstream.Fetched(Ok(Prop(list, "tags2")), [])
  }

  /** The defect: for a summary list whose detail carries tags, the src
      resolver fails where the index.js one answers the tags. */
  lemma TagsViaContextFailsOnSummary(api: Upstream.Api, tags: Value)
    requires api("list/7") == Ok(Obj(map["id" := Str("7"), "links" := Arr([]), "tags2" := tags]))
    ensures TagsViaContext(Obj(map["id" := Str("7")])).result == Err(TypeError)
    ensures Tags(Obj(map["id" := Str("7")]), api) == Upstream.Fetched(Ok(tags), ["list/7"])
  {
    var list := Obj(map["id" := Str("7")]);
    assert IsSummary(List, list);
    assert DetailPath(List, list) == "list/7";
  }

  /** `tags` reads `tags2`, never the `tags` field, and a detail list costs
      no request. */
  lemma TagsReadsTags2(fields: map<string, Value>, api: Upstream.Api)
    requires "links" in fields && fields["links"] != Undefined
    requires "tags2" in fields
    ensures Tags(Obj(fields), api) == Upstream.Fetched(Ok(fields["tags2"]), [])
  {
  }

  /** Whether a list arrives as a summary or as its detail, `tags` answers
      the detail's `tags2`, and only the summary costs a request. */
  lemma TagsEitherRepresentation(list: Value, api: Upstream.Api)
    requires list.Present() && IsSummary(List, list)
    requires ServesDetailOf(List, list, api)
    ensures var detail := api(DetailPath(List, list)).value;
            && Tags(list, api).result == Tags(detail, api).result
            && |Tags(list, api).requests| == 1
            && Tags(detail, api).requests == []
  {
  }

  /** The List resolver table of src/types/list/list.js: the same detail
      fields, but `tags` is the `TagsViaContext` version. */
  function ResolveListFieldSrc(list: Value, fieldName: string, args: Value, call: Call,
                               api: Upstream.Api): Upstream.Fetched<Value>
    requires list.Present()
  {
    if fieldName == "tags" then TagsViaContext(list)
    else if fieldName in ListDetailFields then FetchFromDetailIfSummary(List, list, args, fieldName, call, api)
    else Upstream.Fetched(FieldResolver(list, args, fieldName, call), [])
  }

  /** Under src's table a List field costs one request exactly when the list
      is a summary and the field is one of the six detail fields; `tags` on a
      summary throws without a request, and every other field, `tags`
      included, agrees with the index.js table once the list is a detail. */
  lemma SrcListFieldRequests(list: Value, fieldName: string, args: Value, call: Call, api: Upstream.Api)
    requires list.Present()
    ensures var r := ResolveListFieldSrc(list, fieldName, args, call, api);
            && |r.requests| == (if IsSummary(List, list) && fieldName in ListDetailFields then 1 else 0)
            && forall p | p in r.requests :: p == DetailPath(List, list)
    ensures IsSummary(List, list) && fieldName == "tags" ==>
              ResolveListFieldSrc(list, fieldName, args, call, api) == Upstream.Fetched(Err(TypeError), [])
    ensures !IsSummary(List, list) || fieldName != "tags" ==>
              ResolveListFieldSrc(list, fieldName, args, call, api) == ResolveListField(list, fieldName, args, call, api)
  {
  }

  /** The index.js List table; any other field falls back to `fieldResolver`. */
  function ResolveListField(list: Value, fieldName: string, args: Value, call: Call,
                            api: Upstream.Api): Upstream.Fetched<Value>
    requires list.Present()
  {
    if fieldName == "tags" then Tags(list, api)
    else if fieldName in ListDetailFields then FetchFromDetailIfSummary(List, list, args, fieldName, call, api)
    else Upstream.Fetched(FieldResolver(list, args, fieldName, call), [])
  }

  /** A List field costs one request, for the list's own detail, exactly when
      the list is a summary and the field needs the detail; otherwise none. */
  lemma ListFieldRequests(list: Value, fieldName: string, args: Value, call: Call, api: Upstream.Api)
    requires list.Present()
    ensures var r := ResolveListField(list, fieldName, args, call, api);
            && |r.requests| == (if IsSummary(List, list) && (fieldName in ListDetailFields || fieldName == "tags") then 1 else 0)
            && forall p | p in r.requests :: p == DetailPath(List, list)
  {
  }

  /** Every generic List field is the field read from the chosen payload:
      the fetched detail for a summary, the list itself for a detail. */
  lemma ListFieldFromPayload(list: Value, fieldName: string, args: Value, call: Call, api: Upstream.Api)
    requires list.Present() && fieldName in ListDetailFields
    ensures var r := ResolveListField(list, fieldName, args, call, api);
            && (Payload(List, list, api).Err? ==> r.result == Payload(List, list, api))
            && (Payload(List, list, api).Ok? ==> r.result == FieldResolver(Payload(List, list, api).value, args, fieldName, call))
  {
  }
}

=== FILE: log_entry.dfy ===
/** Field resolvers of the LogEntry type. */
module LogEntryResolvers {
  import opened Json
  import FieldDispatch

  /** `LogEntry.tags`: the payload names the field `tags2`. A log entry has a
      single representation, so no request is ever made. */
  function Tags(logEntry: Value): (r: Result<Value>)
    requires logEntry.Present()
    ensures r.Ok?
    ensures logEntry.Obj? && "tags2" in logEntry.fields ==> r.value == logEntry.fields["tags2"]
    ensures logEntry.Obj? && "tags2" !in logEntry.fields ==> r.value == Undefined
  {
    Get(logEntry, "tags2")
  }

  /** `tags` reads `tags2` only: rewriting the entry's own `tags` field
      leaves the answer unchanged, and the answer is what the plain
      `fieldResolver` gives for `tags2` when that is not a function. */
  lemma TagsReadsTags2(fields: map<string, Value>, tags: Value, args: Value, call: FieldDispatch.Call)
    ensures Tags(Obj(fields["tags" := tags])) == Tags(Obj(fields))
    ensures !Lookup(fields, "tags2").Fn? ==>
              Tags(Obj(fields)) == FieldDispatch.FieldResolver(Obj(fields), args, "tags2", call)
  {
  }
}

=== FILE: member.dfy ===
/** Field resolvers of the Member type: nine fields, all resolved through the
    summary/detail path. */
module MemberResolvers {
  import opened Json
  import opened FieldDispatch
  import opened SummaryDetail
  import Upstream

  /** Fields resolved generically through the summary/detail path. */
  const MemberDetailFields: set<string> :=
    {"backdrop", "bio", "bioLbml", "location", "website", "twitterUsername",
     "favoriteFilms", "pinnedReviews", "links"}

  /** The Member resolver table; any other field falls back to `fieldResolver`. */
  function ResolveMemberField(member: Value, fieldName: string, args: Value, call: Call,
                              api: Upstream.Api): Upstream.Fetched<Value>
    requires member.Present()
  {
    if fieldName in MemberDetailFields then FetchFromDetailIfSummary(Member, member, args, fieldName, call, api)
    else Upstream.Fetched(FieldResolver(member, args, fieldName, call), [])
  }

  /** Each of the nine fields is read from the chosen payload: after exactly
      one `member/<id>` request for a summary, with none for a detail. */
  lemma MemberFieldFromPayload(member: Value, fieldName: string, args: Value, call: Call, api: Upstream.Api)
    requires member.Present() && fieldName in MemberDetailFields
    ensures var r := ResolveMemberField(member, fieldName, args, call, api);
            && r.requests == (if IsSummary(Member, member) then [Upstream.Path(Upstream.Member(ToStr(Prop(member, "id"))))] else [])
            && (Payload(Member, member, api).Err? ==> r.result == Payload(Member, member, api))
            && (Payload(Member, member, api).Ok? ==> r.result == FieldResolver(Payload(Member, member, api).value, args, fieldName, call))
  {
  }

  /** `links` on a detail member is that member's own `links`, and costs no
      request: `links` is the sentinel itself. */
  lemma DetailMemberLinks(member: Value, args: Value, call: Call, api: Upstream.Api)
    requires member.Present() && !IsSummary(Member, member)
    requires !Prop(member, "links").Fn?
    ensures ResolveMemberField(member, "links", args, call, api) == Upstream.Fetched(Ok(Prop(member, "links")), [])
  {
    PlainRead(member, args, "links", call);
  }

  /** A Member field outside the table never costs a request. */
  lemma OtherMemberFieldsNeverFetch(member: Value, fieldName: string, args: Value, call: Call, api: Upstream.Api)
    requires member.Present() && fieldName !in MemberDetailFields
    ensures ResolveMemberField(member, fieldName, args, call, api).requests == []
  {
  }
}

=== FILE: query_resolvers.dfy ===
/** The Query resolvers that split their arguments: one argument names the
    entity, the rest become query parameters. src/resolvers.js forwards the
    pair to the data source; index.js writes the rest into the URL it signs. */
module QueryResolvers {
  import opened Json
  import opened QueryString
  import IndexRequests
  import CacheKey
  import Signing

  /** An id and the parameters forwarded with it. */
  datatype Forward = Forward(id: Value, params: map<string, Value>)

  /** Read `args[key]`, then `delete args[key]`: the id is taken out and every
      other argument is forwarded unchanged. */
  function StripId(args: map<string, Value>, key: string): (f: Forward)
    ensures f.id == Lookup(args, key)
    ensures f.params.Keys == args.Keys - {key}
    ensures forall k | k in f.params :: f.params[k] == args[k]
  {
    Forward(Lookup(args, key), args - {key})
  }

  /** `watchlist` as src/resolvers.js writes it: `queryParams` is `args`
      itself, and the `delete` is applied to the member id rather than to
      the arguments. On an undefined or null id that throws; on a primitive
      id it does nothing, so every argument, `member` included, goes on as a
      parameter. An object id loses a `member` field of its own, and since
      `args.member` is that very object, the forwarded `member` loses it too. */
  function WatchlistArgsAsWritten(args: map<string, Value>): (r: Result<Forward>)
    ensures !Lookup(args, "member").Present() <==> r.Err?
    ensures r.Ok? ==> r.value.params.Keys == args.Keys
    ensures r.Ok? ==> forall k | k in args && k != "member" :: r.value.params[k] == args[k]
    ensures r.Ok? ==> r.value.params["member"] == r.value.id
    ensures r.Ok? && !args["member"].Obj? ==> r.value == Forward(args["member"], args)
    ensures r.Ok? && args["member"].Obj? ==>
              r.value.id == Obj(args["member"].fields - {"member"})
  {
    var memberId := Lookup(args, "member");
    if !memberId.Present() then Err(TypeError)
    else if memberId.Obj? then
      var stripped := Obj(memberId.fields - {"member"});
      Ok(Forward(stripped, args["member" := stripped]))
    else Ok(Forward(memberId, args))
  }

  /** The aliasing: for an object id carrying its own `member` field, the
      field is gone from both the id and the forwarded `member` argument,
      while every other argument goes on unchanged. */
  lemma WatchlistObjectIdShared()
    ensures var inner := map["member" := Num(1), "id" := Str("2bbs")];
            var args := map["member" := Obj(inner), "perPage" := Num(20)];
            WatchlistArgsAsWritten(args)
              == Ok(Forward(Obj(map["id" := Str("2bbs")]),
                            map["member" := Obj(map["id" := Str("2bbs")]), "perPage" := Num(20)]))
  {
    var inner := map["member" := Num(1), "id" := Str("2bbs")];
    assert inner - {"member"} == map["id" := Str("2bbs")];
    var args := map["member" := Obj(inner), "perPage" := Num(20)];
    assert args["member" := Obj(map["id" := Str("2bbs")])]
        == map["member" := Obj(map["id" := Str("2bbs")]), "perPage" := Num(20)];
  }

  /** `watchlist` as intended, and as index.js does it: the member id is
      taken out of the arguments like every other id. */
  function WatchlistArgs(args: map<string, Value>): (f: Forward)
    ensures f.id == Lookup(args, "member")
    ensures "member" !in f.params
    ensures f.params.Keys == args.Keys - {"member"}
  {
    StripId(args, "member")
  }

  /** The defect: for a member given by its string id, the as-written resolver
      forwards `member` as a query parameter too; the corrected one does not. */
  lemma WatchlistKeepsMember()
    ensures var args := map["member" := Str("2bbs"), "perPage" := Num(20)];
            && WatchlistArgsAsWritten(args).Ok?
            && "member" in WatchlistArgsAsWritten(args).value.params
            && WatchlistArgs(args) == Forward(Str("2bbs"), map["perPage" := Num(20)])
  {
    var args := map["member" := Str("2bbs"), "perPage" := Num(20)];
    assert args - {"member"} == map["perPage" := Num(20)];
  }

  /** The four resolvers whose first argument is an id. */
  datatype IdQuery = FilmCollection | FilmMembers | MemberWatchlist | ContributorContributions

  /** The argument that carries the id. */
  function IdKey(q: IdQuery): string {
    match q
    case FilmCollection => "id"
    case FilmMembers => "film"
    case MemberWatchlist => "member"
    case ContributorContributions => "contributor"
  }

  /** The path the id selects, as the template literal writes it. */
  function IdPath(q: IdQuery, id: Value): string {
    match q
    case FilmCollection => "film-collection/" + ToStr(id)
    case FilmMembers => "film/" + ToStr(id) + "/members"
    case MemberWatchlist => "member/" + ToStr(id) + "/watchlist"
    case ContributorContributions => "contributor/" + ToStr(id) + "/contributions"
  }

  /** The id-stripping resolvers of src/resolvers.js; the watchlist one is
      taken as corrected. */
  function SrcForward(q: IdQuery, args: map<string, Value>): (f: Forward)
    ensures f.id == Lookup(args, IdKey(q))
    ensures f.params.Keys == args.Keys - {IdKey(q)}
  {
    if q == MemberWatchlist then WatchlistArgs(args) else StripId(args, IdKey(q))
  }

  /** `url += ?query` only when the serialised query is non-empty. */
  function WithQuery(prefix: string, query: map<string, Value>, codec: Codec): (url: string)
    ensures codec.stringify(query) == "" ==> url == prefix
    ensures codec.stringify(query) != "" ==> url == prefix + "?" + codec.stringify(query)
  {
    var q := codec.stringify(query);
    if q != "" then prefix + "?" + q else prefix
  }

  /** The URL a query with a prefix free of `?` produces splits back into the
      prefix and the serialised query. */
  lemma WithQuerySplits(prefix: string, query: map<string, Value>, codec: Codec)
    requires '?' !in prefix
    ensures CacheKey.UrlBase(WithQuery(prefix, query, codec)) == prefix
    ensures CacheKey.UrlQuery(WithQuery(prefix, query, codec)) == codec.stringify(query)
  {
    CacheKey.SplitAtFirstMark(prefix, codec.stringify(query));
  }

  /** The path index.js hands to `request` for an id query: the id's path,
      then the remaining arguments. */
  function IdQueryPath(q: IdQuery, args: map<string, Value>, codec: Codec): (path: string)
    ensures var f := StripId(args, IdKey(q));
            path == WithQuery(IdPath(q, f.id), f.params, codec)
  {
    var id := Lookup(args, IdKey(q));
    WithQuery(IdPath(q, id), args - {IdKey(q)}, codec)
  }

  /** index.js and src/resolvers.js agree on every id query: index.js writes
      into the URL exactly the id and the parameters src forwards, watchlist
      included once corrected. Both sides are built from `StripId`, so this
      holds by unfolding the definitions; it records that the two resolver
      sets split their arguments alike, not an independent check. */
  lemma IdQueryMatchesSrc(q: IdQuery, args: map<string, Value>, codec: Codec)
    ensures var f := SrcForward(q, args);
            IdQueryPath(q, args, codec) == WithQuery(IdPath(q, f.id), f.params, codec)
  {
  }

  /** Only the id key is withheld: with an id free of `?`, the URL's query is
      the serialisation of every other argument, and the id never reaches it. */
  lemma IdQueryWithholdsOnlyId(q: IdQuery, args: map<string, Value>, codec: Codec)
    requires '?' !in ToStr(Lookup(args, IdKey(q)))
    ensures var path := IdQueryPath(q, args, codec);
            && CacheKey.UrlBase(path) == IdPath(q, Lookup(args, IdKey(q)))
            && CacheKey.UrlQuery(path) == codec.stringify(args - {IdKey(q)})
  {
    var prefix := IdPath(q, Lookup(args, IdKey(q)));
    var id := ToStr(Lookup(args, IdKey(q)));
    var head := match q
      case FilmCollection => "film-collection/"
      case FilmMembers => "film/"
      case MemberWatchlist => "member/"
      case ContributorContributions => "contributor/";
    var tail := match q
      case FilmCollection => ""
      case FilmMembers => "/members"
      case MemberWatchlist => "/watchlist"
      case ContributorContributions => "/contributions";
    assert prefix == head + id + tail;
    assert '?' !in head && '?' !in tail;
    assert '?' !in prefix;
    WithQuerySplits(prefix, args - {IdKey(q)}, codec);
  }

  /** Signing an id query: the signing parameters open the query with `?`
      when no argument remains besides the id, and continue it with `&`
      otherwise. */
  lemma IdQuerySignedSeparator(q: IdQuery, args: map<string, Value>, codec: Codec,
                               verb: string, body: Value, inputs: Signing.Inputs)
    requires '?' !in ToStr(Lookup(args, IdKey(q)))
    ensures var path := IdQueryPath(q, args, codec);
            var url := IndexRequests.BuildUrl(verb, path, body, inputs);
            url[|IndexRequests.PathUrl(path)|] == (if codec.stringify(args - {IdKey(q)}) == "" then '?' else '&')
  {
    IdQueryWithholdsOnlyId(q, args, codec);
    var path := IdQueryPath(q, args, codec);
    var prefix := IdPath(q, Lookup(args, IdKey(q)));
    if codec.stringify(args - {IdKey(q)}) != "" {
      assert path[|prefix|] == '?';
    }
  }

  /** The resolvers that serialise all their arguments. */
  datatype ArgsQuery = LogEntries | Search | UsernameCheck

  function ArgsQueryPrefix(q: ArgsQuery): string {
    match q
    case LogEntries => "log-entries"
    case Search => "search"
    case UsernameCheck => "auth/username-check"
  }

  /** `logEntries`, `search` and `usernameCheck`: the fixed path followed by
      every argument. */
  function ArgsQueryPath(q: ArgsQuery, args: map<string, Value>, codec: Codec): (path: string)
    ensures CacheKey.UrlBase(path) == ArgsQueryPrefix(q)
    ensures CacheKey.UrlQuery(path) == codec.stringify(args)
  {
    var prefix := ArgsQueryPrefix(q);
    assert '?' !in prefix;
    WithQuerySplits(prefix, args, codec);
    WithQuery(prefix, args, codec)
  }
}

=== FILE: query_string.dfy ===
/** Query strings: the ordered parameter list a request carries, and the
    object `query-string` parses a query into. The encoders themselves are
    library code and stay abstract. */
module QueryString {
  import opened Json

  /** One `key=value` pair, in the order it was appended. */
  datatype Param = Param(key: string, value: string)

  /** The library encoders the façade calls:
      - `serialize`: `URLSearchParams.prototype.toString`, pairs in order;
      - `parse`: `query-string`'s parser, as the ordered pairs it decodes
        before grouping them by key (see `Group`);
      - `stringify`: `query-string`'s serialiser of a plain object. */
  datatype Codec = Codec(
    serialize: seq<Param> -> string,
    parse: string -> seq<Param>,
    stringify: map<string, Value> -> string)

  /** What the façade needs of the encoders: the parser reads back what the
      serialiser writes, serialised pairs contain no NUL (it is
      percent-encoded), and empty inputs serialise to the empty string. */
  ghost predicate Lawful(c: Codec) {
    && (forall ps :: c.parse(c.serialize(ps)) == ps)
    && (forall ps :: '\0' !in c.serialize(ps))
    && c.serialize([]) == ""
    && c.stringify(map[]) == ""
  }

  /** The keys of a parameter list, in order. */
  function Keys(ps: seq<Param>): seq<string> {
    seq(|ps|, i requires 0 <= i < |ps| => ps[i].key)
  }

  /** The values given to `key`, in order. */
  function ValuesOf(ps: seq<Param>, key: string): seq<string>
    decreases |ps|
  {
    if ps == [] then []
    else ValuesOf(ps[..|ps| - 1], key) + (if ps[|ps| - 1].key == key then [ps[|ps| - 1].value] else [])
  }

  function Strs(vs: seq<string>): seq<Value> {
    seq(|vs|, i requires 0 <= i < |vs| => Str(vs[i]))
  }

  /** How a parsed object holds a key's values: a single value as a string,
      several as an array of strings. */
  function Collapse(vs: seq<string>): Value
    requires |vs| > 0
  {
    if |vs| == 1 then Str(vs[0]) else Arr(Strs(vs))
  }

  /** A second value for a key: `[].concat(previous, value)`. */
  function Appended(previous: Value, value: string): Value {
    if previous.Arr? then Arr(previous.items + [Str(value)]) else Arr([previous, Str(value)])
  }

  /** The object `query-string` builds from parsed pairs, one pair at a time. */
  function Group(ps: seq<Param>): map<string, Value>
    decreases |ps|
  {
    if ps == [] then map[]
    else
      var m := Group(ps[..|ps| - 1]);
      var p := ps[|ps| - 1];
      if p.key in m then m[p.key := Appended(m[p.key], p.value)] else m[p.key := Str(p.value)]
  }

  lemma AppendedCollapse(vs: seq<string>, v: string)
    requires |vs| > 0
    ensures Appended(Collapse(vs), v) == Collapse(vs + [v])
  {
    if |vs| == 1 {
      assert Strs(vs + [v]) == [Str(vs[0]), Str(v)];
    } else {
      assert Strs(vs + [v]) == Strs(vs) + [Str(v)];
    }
  }

  /** The parsed object, key by key: a key is present exactly when some pair
      names it, and holds all of that key's values in order. */
  lemma {:induction false} GroupByKey(ps: seq<Param>, key: string)
    ensures key in Group(ps) <==> |ValuesOf(ps, key)| > 0
    ensures key in Group(ps) ==> Group(ps)[key] == Collapse(ValuesOf(ps, key))
    decreases |ps|
  {
    if ps != [] {
      var init := ps[..|ps| - 1];
      var p := ps[|ps| - 1];
      GroupByKey(init, key);
      if p.key == key && key in Group(init) {
        AppendedCollapse(ValuesOf(init, key), p.value);
      }
    }
  }

  /** Pairs whose keys all lie in `dropped` leave the rest of the parsed
      object alone. */
  lemma {:induction false} GroupIgnoresDroppedTail(ps: seq<Param>, tail: seq<Param>, dropped: set<string>)
    requires forall i | 0 <= i < |tail| :: tail[i].key in dropped
    ensures Group(ps + tail) - dropped == Group(ps) - dropped
    decreases |tail|
  {
    if tail != [] {
      var init := tail[..|tail| - 1];
      assert (ps + tail)[..|ps + tail| - 1] == ps + init;
      GroupIgnoresDroppedTail(ps, init, dropped);
      var p := tail[|tail| - 1];
      var m := Group(ps + init);
      assert p.key in dropped;
      assert Group(ps + tail) == m[p.key := if p.key in m then Appended(m[p.key], p.value) else Str(p.value)];
      assert m[p.key := if p.key in m then Appended(m[p.key], p.value) else Str(p.value)] - dropped == m - dropped;
    } else {
      assert ps + tail == ps;
    }
  }
}

=== FILE: signing.dfy ===
/** Request signing for the data source (`signRequest`): the API key, a
    fresh nonce and the current time in seconds are appended to the query,
    then an HMAC-SHA256 of the method, the production URL and the body is
    appended as `signature`. The hash, the clock and the nonce generator are
    inputs. */
module Signing {
  import opened Json
  import opened QueryString

  /** The production base URL, version included, without a trailing slash. */
  const ApiBaseUrl: string := "https://api.letterboxd.com/api/v0"

  /** The local reverse proxy the data source targets in development. */
  const DevBaseUrl: string := "https://localhost:62917/api/v0"

  /** The pre-shared key and secret, read from the environment at start-up. */
  datatype Credentials = Credentials(apiKey: string, secret: string)

  /** HMAC-SHA256 under a secret, as a hex digest. */
  type Hmac = (string, string) -> string

  /** What one signing takes from outside: the credentials, a fresh uuid,
      the clock in milliseconds since the epoch, and the hash. */
  datatype Inputs = Inputs(creds: Credentials, nonce: string, nowMs: int, hmac: Hmac)

  /** An outgoing data-source request: HTTP verb, path relative to the base
      URL, query parameters in order, body. */
  datatype Request = Request(verb: string, path: string, params: seq<Param>, body: Value)

  /** `Math.round(ms / 1000)`: the nearest whole second, halves rounding up. */
  function TimestampSeconds(ms: int): (s: int)
    ensures -500 < 1000 * s - ms <= 500
  {
    (ms + 500) / 1000
  }

  /** The three parameters appended before the signature is computed. */
  function AuthParams(inputs: Inputs): seq<Param> {
    [ Param("apikey", inputs.creds.apiKey),
      Param("nonce", inputs.nonce),
      Param("timestamp", Decimal(TimestampSeconds(inputs.nowMs))) ]
  }

  /** The URL the signature covers: always the production base URL, the
      path, and the parameters serialised in order. */
  function SignedUrl(path: string, params: seq<Param>, codec: Codec): string {
    ApiBaseUrl + "/" + path + "?" + codec.serialize(params)
  }

  /** `verb NUL url NUL`, followed by the body only when it is truthy. */
  function SaltedString(verb: string, url: string, body: Value): string {
    verb + "\0" + url + "\0" + (if Truthy(body) then ToStr(body) else "")
  }

  /** The string `signRequest` hashes for a request. */
  function SaltedOf(req: Request, inputs: Inputs, codec: Codec): string {
    SaltedString(req.verb, SignedUrl(req.path, req.params + AuthParams(inputs), codec), req.body)
  }

  /** `signRequest`: the caller's parameters stay as a prefix, followed by
      exactly `apikey`, `nonce`, `timestamp` and `signature`, in that order. */
  function SignRequest(req: Request, inputs: Inputs, codec: Codec): (signed: Request)
    ensures signed.verb == req.verb && signed.path == req.path && signed.body == req.body
    ensures |signed.params| == |req.params| + 4
    ensures signed.params[..|req.params|] == req.params
    ensures Keys(signed.params[|req.params|..]) == ["apikey", "nonce", "timestamp", "signature"]
    ensures signed.params[|req.params|].value == inputs.creds.apiKey
    ensures signed.params[|req.params| + 1].value == inputs.nonce
    ensures ParseDecimal(signed.params[|req.params| + 2].value) == TimestampSeconds(inputs.nowMs)
  {
    var withAuth := req.params + AuthParams(inputs);
    var signature := inputs.hmac(inputs.creds.secret, SaltedOf(req, inputs, codec));
    DecimalRoundTrip(TimestampSeconds(inputs.nowMs));
    assert (withAuth + [Param("signature", signature)])[|req.params|..] == AuthParams(inputs) + [Param("signature", signature)];
    req.(params := withAuth + [Param("signature", signature)])
  }

  /** What the API recomputes to accept a request: its last parameter is
      `signature`, holding the HMAC under the secret of the method, the
      production URL carrying every parameter before the signature, and the
      body. */
  predicate SignatureValid(r: Request, secret: string, hmac: Hmac, codec: Codec) {
    && |r.params| > 0
    && r.params[|r.params| - 1].key == "signature"
    && r.params[|r.params| - 1].value
         == hmac(secret, SaltedString(r.verb, SignedUrl(r.path, r.params[..|r.params| - 1], codec), r.body))
  }

  /** A signed request passes the API's check: the signature covers the
      request as it stood before the signature was appended, never itself. */
  lemma SignedRequestIsValid(req: Request, inputs: Inputs, codec: Codec)
    ensures SignatureValid(SignRequest(req, inputs, codec), inputs.creds.secret, inputs.hmac, codec)
  {
    var signed := SignRequest(req, inputs, codec);
    assert signed.params[..|signed.params| - 1] == req.params + AuthParams(inputs);
  }

  /** The covered parameters hold no `signature` unless the caller supplied one. */
  lemma SignatureNotCovered(req: Request, inputs: Inputs, codec: Codec)
    requires forall i | 0 <= i < |req.params| :: req.params[i].key != "signature"
    ensures var signed := SignRequest(req, inputs, codec);
            forall i | 0 <= i < |signed.params| - 1 :: signed.params[i].key != "signature"
  {
    var signed := SignRequest(req, inputs, codec);
    assert signed.params[..|signed.params| - 1] == req.params + AuthParams(inputs);
    forall i | 0 <= i < |signed.params| - 1
      ensures signed.params[i].key != "signature"
    {
      assert signed.params[i] == (req.params + AuthParams(inputs))[i];
    }
  }

  /** The position of the first NUL in `s`, or `|s|` when there is none. */
  function FirstNul(s: string): (i: nat)
    ensures i <= |s|
  {
    if s == [] then 0 else if s[0] == '\0' then 0 else 1 + FirstNul(s[1..])
  }

  lemma {:induction false} FirstNulAfter(a: string, t: string)
    requires '\0' !in a
    ensures FirstNul(a + "\0" + t) == |a|
    decreases |a|
  {
    if a != [] {
      assert (a + "\0" + t)[1..] == a[1..] + "\0" + t;
      FirstNulAfter(a[1..], t);
    }
  }

  /** A NUL-free prefix is recovered from what follows it: the salted string
      cannot confuse one URL with another. */
  lemma NulDelimitedPrefix(a: string, b: string, ta: string, tb: string)
    requires '\0' !in a && '\0' !in b
    requires a + "\0" + ta == b + "\0" + tb
    ensures a == b
  {
    var s := a + "\0" + ta;
    FirstNulAfter(a, ta);
    FirstNulAfter(b, tb);
    assert a == s[..|a|] == b;
  }

  lemma SerializeInjective(codec: Codec, p1: seq<Param>, p2: seq<Param>)
    requires Lawful(codec)
    requires codec.serialize(p1) == codec.serialize(p2)
    ensures p1 == p2
  {
    assert codec.parse(codec.serialize(p1)) == p1;
    assert codec.parse(codec.serialize(p2)) == p2;
  }

  /** A fresh nonce, or a different second, changes the string that is
      signed: no two signings of one request at different times share it. */
  lemma FreshNonceOrSecondChangesSaltedString(req: Request, i1: Inputs, i2: Inputs, codec: Codec)
    requires Lawful(codec)
    requires i1.creds == i2.creds
    requires i1.nonce != i2.nonce || TimestampSeconds(i1.nowMs) != TimestampSeconds(i2.nowMs)
    ensures SaltedOf(req, i1, codec) != SaltedOf(req, i2, codec)
  {
    var p1 := req.params + AuthParams(i1);
    var p2 := req.params + AuthParams(i2);
    if p1 == p2 {
      assert p1[|req.params| + 1] == Param("nonce", i1.nonce);
      assert p2[|req.params| + 1] == Param("nonce", i2.nonce);
      assert p1[|req.params| + 2].value == Decimal(TimestampSeconds(i1.nowMs));
      assert p2[|req.params| + 2].value == Decimal(TimestampSeconds(i2.nowMs));
      DecimalInjective(TimestampSeconds(i1.nowMs), TimestampSeconds(i2.nowMs));
      assert false;
    }
    if SaltedOf(req, i1, codec) == SaltedOf(req, i2, codec) {
      var prefix := req.verb + "\0" + ApiBaseUrl + "/" + req.path + "?";
      var tail := "\0" + (if Truthy(req.body) then ToStr(req.body) else "");
      var s1 := codec.serialize(p1);
      var s2 := codec.serialize(p2);
      assert SaltedOf(req, i1, codec) == prefix + (s1 + tail);
      assert SaltedOf(req, i2, codec) == prefix + (s2 + tail);
      assert s1 + tail == (prefix + (s1 + tail))[|prefix|..];
      assert s2 + tail == (prefix + (s2 + tail))[|prefix|..];
      var body := if Truthy(req.body) then ToStr(req.body) else "";
      assert s1 + tail == s1 + "\0" + body;
      assert s2 + tail == s2 + "\0" + body;
      NulDelimitedPrefix(s1, s2, body, body);
      SerializeInjective(codec, p1, p2);
      assert false;
    }
  }

  /** A simplification of RESTDataSource's `new URL(path, base)`: the base
      URL gains a trailing slash if it lacks one, then the path follows as
      it is. Percent-encoding, dot segments, `#` and a query inside the path
      are not resolved. */
  function JoinBase(baseUrl: string, path: string): string {
    (if |baseUrl| > 0 && baseUrl[|baseUrl| - 1] == '/' then baseUrl else baseUrl + "/") + path
  }

  /** The URL actually requested: the resolved path, then `?` and the
      serialised parameters when there are any. */
  function RequestUrl(baseUrl: string, path: string, params: seq<Param>, codec: Codec): string {
    JoinBase(baseUrl, path) + (if params == [] then "" else "?" + codec.serialize(params))
  }

  /** Against the production base URL, the signature covers exactly the URL
      requested, minus the trailing `signature` parameter. */
  lemma ProductionSignatureCoversRequestUrl(req: Request, inputs: Inputs, codec: Codec)
    ensures var signed := SignRequest(req, inputs, codec);
            var covered := signed.params[..|signed.params| - 1];
            SignedUrl(req.path, covered, codec) == RequestUrl(ApiBaseUrl, req.path, covered, codec)
  {
    var signed := SignRequest(req, inputs, codec);
    assert signed.params[..|signed.params| - 1] != [];
  }

  /** Against the development proxy, the URL requested differs from the one
      signed: the signature always covers the production base URL. */
  lemma DevSignatureCoversProductionUrl(req: Request, inputs: Inputs, codec: Codec)
    ensures var signed := SignRequest(req, inputs, codec);
            var covered := signed.params[..|signed.params| - 1];
            SignedUrl(req.path, covered, codec) != RequestUrl(DevBaseUrl, req.path, covered, codec)
  {
    var signed := SignRequest(req, inputs, codec);
    var covered := signed.params[..|signed.params| - 1];
    assert SignedUrl(req.path, covered, codec)[8] == 'a';
    assert RequestUrl(DevBaseUrl, req.path, covered, codec)[8] == 'l';
  }
}

=== FILE: summary_detail.dfy ===
/** The summary/detail protocol. Collection and search endpoints return a
    partial "summary" projection of an entity; the single-entity endpoint
    returns the full "detail". Which one a payload is follows from one
    sentinel field alone, and a field resolved on a summary is read from the
    detail fetched by the entity's id. */
module SummaryDetail {
  import opened Json
  import opened FieldDispatch
  import Upstream

  /** The entity types with two representations. */
  datatype Entity = Film | List | Member | Contributor

  /** The detail-only field whose absence marks a summary. */
  function Sentinel(k: Entity): string {
    match k
    case Film => "trailer"
    case List => "links"
    case Member => "links"
    case Contributor => "links"
  }

  /** `isFilmSummary`, `isListSummary`, `isMemberSummary`, `isContributorSummary`:
      the sentinel is `undefined`. A sentinel holding `null` marks a detail. */
  predicate IsSummary(k: Entity, entity: Value) {
    Prop(entity, Sentinel(k)) == Undefined
  }

  /** The getter that fetches the detail of an entity with the given id. */
  function DetailEndpoint(k: Entity, id: Value): Upstream.Endpoint {
    match k
    case Film => Upstream.Film(ToStr(id))
    case List => Upstream.List(ToStr(id))
    case Member => Upstream.Member(ToStr(id))
    case Contributor => Upstream.Contributor(ToStr(id))
  }

  /** The path requested for the detail of `entity`, built from its `id`. */
  function DetailPath(k: Entity, entity: Value): string {
    Upstream.Path(DetailEndpoint(k, Prop(entity, "id")))
  }

  /** Where a field of `entity` is read from: the fetched detail when the
      entity is a summary, the entity itself otherwise. */
  function Payload(k: Entity, entity: Value, api: Upstream.Api): Result<Value> {
    if IsSummary(k, entity) then api(DetailPath(k, entity)) else Ok(entity)
  }

  /** `fetchFromDetailIf…Summary(entity, args, context, info)` for each of the
      four entity types. GraphQL resolves a field only on a parent that is
      neither `null` nor `undefined`. */
  function FetchFromDetailIfSummary(k: Entity, entity: Value, args: Value, fieldName: string,
                                    call: Call, api: Upstream.Api): (r: Upstream.Fetched<Value>)
    requires entity.Present()
    ensures IsSummary(k, entity) <==> |r.requests| == 1
    ensures !IsSummary(k, entity) <==> r.requests == []
    ensures forall p | p in r.requests :: p == DetailPath(k, entity)
    ensures Payload(k, entity, api).Err? ==> r.result == Payload(k, entity, api)
    ensures Payload(k, entity, api).Ok? ==>
              r.result == FieldResolver(Payload(k, entity, api).value, args, fieldName, call)
  {
    if IsSummary(k, entity) then
      var response := Upstream.Fetch(api, DetailPath(k, entity));
      match response.result
      case Err(e) => Upstream.Fetched(Err(e), response.requests)
      case Ok(json) => Upstream.Fetched(FieldResolver(json, args, fieldName, call), response.requests)
    else
      Upstream.Fetched(FieldResolver(entity, args, fieldName, call), [])
  }

  /** On a summary: exactly one request, for the detail of the entity's own
      id, and the field comes from the fetched payload. */
  lemma FetchOnSummary(k: Entity, entity: Value, args: Value, fieldName: string,
                       call: Call, api: Upstream.Api, detail: Value)
    requires entity.Present() && IsSummary(k, entity)
    requires api(DetailPath(k, entity)) == Ok(detail)
    ensures var r := FetchFromDetailIfSummary(k, entity, args, fieldName, call, api);
            && r.requests == [Upstream.Path(DetailEndpoint(k, Prop(entity, "id")))]
            && r.result == FieldResolver(detail, args, fieldName, call)
  {
  }

  /** On a detail: no request, and the field comes from the entity itself. */
  lemma NoFetchOnDetail(k: Entity, entity: Value, args: Value, fieldName: string,
                        call: Call, api: Upstream.Api)
    requires entity.Present() && !IsSummary(k, entity)
    ensures var r := FetchFromDetailIfSummary(k, entity, args, fieldName, call, api);
            && r.requests == []
            && r.result == FieldResolver(entity, args, fieldName, call)
  {
  }

  /** A detail payload whose sentinel is `null` is still a detail. */
  lemma NullSentinelIsDetail(k: Entity, fields: map<string, Value>)
    requires Sentinel(k) in fields && fields[Sentinel(k)] == Null
    ensures !IsSummary(k, Obj(fields))
  {
  }

  /** `summary` is a projection of `detail`: every field it has, the detail
      has with the same value. */
  predicate ProjectionOf(summary: Value, detail: Value) {
    && summary.Obj? && detail.Obj?
    && forall key | key in summary.fields :: key in detail.fields && detail.fields[key] == summary.fields[key]
  }

  /** The upstream contract: the detail endpoint for an entity's id serves a
      detail payload (sentinel present) of which the entity is a projection. */
  predicate ServesDetailOf(k: Entity, entity: Value, api: Upstream.Api) {
    && api(DetailPath(k, entity)).Ok?
    && !IsSummary(k, api(DetailPath(k, entity)).value)
    && ProjectionOf(entity, api(DetailPath(k, entity)).value)
  }

  /** Whether the entity arrived as a summary or as the detail the API
      serves for it, a resolved field is the one read from that detail, and
      resolving on the detail costs no request. Both sides read the same
      fetched payload, so no relation between summary and detail is needed. */
  lemma SameFieldEitherRepresentation(k: Entity, entity: Value, args: Value, fieldName: string,
                                      call: Call, api: Upstream.Api)
    requires entity.Present() && IsSummary(k, entity)
    requires api(DetailPath(k, entity)).Ok? && !IsSummary(k, api(DetailPath(k, entity)).value)
    ensures var detail := api(DetailPath(k, entity)).value;
            && FetchFromDetailIfSummary(k, entity, args, fieldName, call, api).result
               == FetchFromDetailIfSummary(k, detail, args, fieldName, call, api).result
            && FetchFromDetailIfSummary(k, detail, args, fieldName, call, api).requests == []
  {
  }

  /** A field the summary already carries comes out of the fetched detail
      with the same value: the fetch a summary always makes is redundant for
      it, but never changes the answer. */
  lemma SummaryFieldSurvivesFetch(k: Entity, entity: Value, args: Value, fieldName: string,
                                  call: Call, api: Upstream.Api)
    requires entity.Present() && IsSummary(k, entity)
    requires ServesDetailOf(k, entity, api)
    requires Prop(entity, fieldName) != Undefined && !Prop(entity, fieldName).Fn?
    ensures FetchFromDetailIfSummary(k, entity, args, fieldName, call, api).result == Ok(Prop(entity, fieldName))
  {
    var detail := api(DetailPath(k, entity)).value;
    assert Prop(detail, fieldName) == Prop(entity, fieldName);
    PlainRead(detail, args, fieldName, call);
  }
}

=== FILE: upstream.dfy ===
/** The REST data source as the resolvers see it: one path per resource, a
    GET that yields parsed JSON, and the `items` unwrapping of list
    endpoints. The HTTP transport itself is an oracle. */
module Upstream {
  import opened Json

  /** A GET of a path relative to the API base: the parsed JSON body, or the
      error the transport raised. */
  type Api = string -> Result<Value>

  /** A resolver's outcome together with the paths it requested, in order. */
  datatype Fetched<+T> = Fetched(result: Result<T>, requests: seq<string>)

  /** The resources the data source reads. */
  datatype Endpoint =
    | Film(id: string)
    | Films
    | List(id: string)
    | Lists
    | LogEntry(id: string)
    | LogEntries
    | Member(id: string)
    | Members
    | Contributor(id: string)
    | Genres
    | Services

  /** The path each getter passes to `this.get`. */
  function Path(e: Endpoint): string {
    match e
    case Film(id) => "film/" + id
    case Films => "films"
    case List(id) => "list/" + id
    case Lists => "lists"
    case LogEntry(id) => "log-entry/" + id
    case LogEntries => "log-entries"
    case Member(id) => "member/" + id
    case Members => "members"
    case Contributor(id) => "contributor/" + id
    case Genres => "films/genres"
    case Services => "films/film-services"
  }

  predicate HasPrefix(s: string, p: string) {
    |p| <= |s| && s[..|p|] == p
  }

  /** Which resource a path names: the inverse of `Path`. */
  function EndpointOf(path: string): Option<Endpoint> {
    if path == "films" then Some(Films)
    else if path == "lists" then Some(Lists)
    else if path == "log-entries" then Some(LogEntries)
    else if path == "members" then Some(Members)
    else if path == "films/genres" then Some(Genres)
    else if path == "films/film-services" then Some(Services)
    else if HasPrefix(path, "film/") then Some(Film(path[5..]))
    else if HasPrefix(path, "list/") then Some(List(path[5..]))
    else if HasPrefix(path, "log-entry/") then Some(LogEntry(path[10..]))
    else if HasPrefix(path, "member/") then Some(Member(path[7..]))
    else if HasPrefix(path, "contributor/") then Some(Contributor(path[12..]))
    else None
  }

  /** Each getter requests its own resource: no two endpoints share a path,
      so the path names the entity and the id it was built from. */
  lemma PathRoundTrip(e: Endpoint)
    ensures EndpointOf(Path(e)) == Some(e)
  {
    var p := Path(e);
    match e
    case Film(id) =>
      assert p[4] == '/';
      assert p[..5] == "film/";
    case List(id) =>
      assert p[4] == '/';
      assert p[..5] == "list/";
    case LogEntry(id) =>
      assert p[9] == '/';
      assert p[..10] == "log-entry/";
      assert p[1] == 'o' && p[..5][1] == 'o';
    case Member(id) =>
      assert p[6] == '/';
      assert p[..7] == "member/";
      assert p[0] == 'm' && p[..5][0] == 'm';
      assert |p| >= 10 ==> p[..10][0] == 'm';
    case Contributor(id) =>
      assert p[11] == '/';
      assert p[..12] == "contributor/";
      assert p[0] == 'c' && p[..5][0] == 'c' && p[..7][0] == 'c' && p[..10][0] == 'c';
    case _ =>
  }

  lemma PathInjective(e1: Endpoint, e2: Endpoint)
    requires Path(e1) == Path(e2)
    ensures e1 == e2
  {
    PathRoundTrip(e1);
    PathRoundTrip(e2);
  }

  /** `this.get(path)`: exactly one request, for that path. */
  function Fetch(api: Api, path: string): (r: Fetched<Value>)
    ensures r.requests == [path]
    ensures r.result == api(path)
  {
    Fetched(api(path), [path])
  }

  /** `getGenres` and `getServices`: `this.get(path).then(json => json.items)`.
      Only the `items` array of the paginated envelope is kept; a `null`
      body makes the read throw. */
  function Items(api: Api, e: Endpoint): (r: Fetched<Value>)
    requires e.Genres? || e.Services?
    ensures r.requests == [Path(e)]
    ensures api(Path(e)).Err? ==> r.result == api(Path(e))
    ensures api(Path(e)).Ok? ==> r.result == Get(api(Path(e)).value, "items")
  {
    var response := Fetch(api, Path(e));
    match response.result
    case Err(err) => Fetched(Err(err), response.requests)
    case Ok(json) => Fetched(Get(json, "items"), response.requests)
  }

  /** The pagination envelope is dropped: two bodies that agree on `items`
      give the same answer whatever their other fields (`next`, counts,
      metadata), and an object body never makes the read throw. */
  lemma ItemsIgnoresEnvelope(api1: Api, api2: Api, e: Endpoint,
                             f1: map<string, Value>, f2: map<string, Value>)
    requires e.Genres? || e.Services?
    requires api1(Path(e)) == Ok(Obj(f1)) && api2(Path(e)) == Ok(Obj(f2))
    requires Lookup(f1, "items") == Lookup(f2, "items")
    ensures Items(api1, e) == Items(api2, e)
    ensures Items(api1, e) == Fetched(Ok(Lookup(f1, "items")), [Path(e)])
  {
  }
}
